=== FILE: README.md ===
# N-Queens solver and symmetry reducer, modelled in Dafny

A model of the `nqueens` Go package. It has three parts.

- **The board.** A board of size `N` holds a list of queen positions `(X, Y)` and four caches of occupied keys: rows, columns, up-diagonals keyed by `y-x`, and down-diagonals keyed by `y+x`. Setting a queen copies the board. It keeps the list sorted by row. The board can be mirrored in its vertical axis and turned a quarter clockwise.
- **The backtracking solver.** `GetAllSolutions` fills the first unoccupied row. It tries each safe column from left to right and recurses. It returns the board itself once every row is occupied.
- **The symmetry reducer.** `IsEqual` compares queen lists entry by entry. `IsEquivalent` compares a board with the eight rotated and mirrored images of another. `ReduceToFundamentalSolutions` keeps the first remaining board, drops every remaining board equivalent to it, and repeats.

Boards are immutable values. Go's maps become `set<int>`. The predicate `Boards.Valid` says each cache is exactly the image of the queen list under its key. `NewBoard`, `Copy`, `SetQueen`, `Replay`, `Mirror` and `RotateClockwise` return a valid board from any input; `AddQueen`, the in-place `setQueen`, keeps a valid board valid.

Modules:

- `Positions`: positions, the attack relation, sorting by row, and the two square transforms.
- `Boards`: `nqueens/board.go`.
- `Symmetry`: facts about mirroring and rotating.
- `NQueens`: `nqueens/nqueens.go`.
- `SolverProofs`: the solver is sound, complete, free of duplicates and ordered, and its result is exactly determined.
- `ReducerProofs`: the reducer, and equivalence as "one of the eight variants".
- `SmallBoards`: the 4-by-4 counts that the repository's tests expect.

Two points where the model follows the code as written:

- One might expect the search to reject a seed whose preset queens attack each other. The code has no such check: `GetAllSolutions` calls straight into the recursion (`nqueens/nqueens.go:17-19`). The model has no check either. `SolverProofs.SolutionsSound` only promises non-attacking results when the seed is non-attacking.
- `IsEquivalent` mirrors the board after its fourth quarter turn, not the original board. The model keeps this. `ReducerProofs.MirroredFourthTurn` shows the two agree on boards sorted by row with distinct rows and columns.

`sort.Sort` is not stable. The model uses one insertion sort, `Positions.SortByY`. Its contract says only "a permutation sorted by row". `Positions.SortedPermutationUnique` shows that any such permutation is this one when rows are distinct. That holds for every board the solver builds from a seed with its queens in distinct rows (`SolverProofs.Seed`), and for every solution; see "## Left out" for other seeds.

## Model

| member | source | states |
|---|---|---|
| Positions.SortByY | nqueens/board.go:14-19 | the result is a permutation of the input, sorted by ascending row |
| Positions.InsertByY | nqueens/board.go:14-19 | inserting one queen adds exactly that queen and keeps a row-sorted list sorted |
| Positions.SortedPermutationUnique | nqueens/board.go:81 | two row-sorted permutations of the same list with distinct rows are identical, so the unstable sort has only one possible outcome |
| Positions.SortedPermutationsEqual | nqueens/board.go:112 | any two row-sorted rearrangements of a list with distinct rows coincide |
| Positions.PairwisePermutation | nqueens/board.go:81 | re-sorting keeps every pairwise property of the queens, such as non-attacking |
| Positions.ApplyAllPermutation | nqueens/board.go:105-114 | transforming two rearrangements of the same queens gives rearrangements of the same images |
| Positions.RowsCoverBoard | nqueens/nqueens.go:22-36 | a row-sorted list with distinct rows on the board that covers every row `0..n-1` has exactly `n` queens, the one at index `i` in row `i` |
| Boards.SameEntriesSameCaches | nqueens/board.go:58-64 | the caches depend only on which queens are present, not on their order |
| Boards.NewBoard | nqueens/board.go:31-41 | a board of size `n` with no queens and four empty caches |
| Boards.IsSafe | nqueens/board.go:43-56 | on a valid board, safe exactly when no queen shares a row, column or diagonal with `(x, y)`; no bounds check |
| Boards.AddQueen | nqueens/board.go:58-64 | appends exactly one queen, adds exactly its four keys, and keeps the caches equal to the images of the queens |
| Boards.Replay | nqueens/board.go:88-91 | setting the queens of a list one by one on a new board gives that list with matching caches |
| Boards.Copy | nqueens/board.go:86-93 | same size and queen list with rebuilt caches; a valid board is copied to an equal board |
| Boards.SetQueen | nqueens/board.go:66-84 | same size; the queens are a permutation of the old queens plus `(x, y)`; the list is the plain append when no row lies below `y`, and sorted by row whenever some row does; a row-sorted list stays row-sorted; each cache gains exactly the new key |
| Boards.AppendKeepsSorted | nqueens/board.go:68-75 | skipping the sort is safe: when no occupied row exceeds `y`, appending keeps the row order |
| Boards.Mirror | nqueens/board.go:95-103 | each queen `(x, y)` becomes `(N-1-x, y)`, in the same order, with valid caches |
| Boards.RotateClockwise | nqueens/board.go:105-114 | the queens are a row-sorted rearrangement of the images `(N-1-y, x)`, with valid caches |
| Symmetry.ApplyKeepsRelations | nqueens/board.go:95-114 | both square transforms preserve attacking in both directions, and preserve distinct rows and columns |
| Symmetry.MirrorInvolution | nqueens/board.go:95-103 | mirroring twice gives back the queen list, and gives back a valid board exactly |
| Symmetry.MirrorPreserves | nqueens/board.go:95-103 | mirroring keeps queens on the board, keeps row order, and keeps distinct rows, distinct rows and columns, and non-attacking queens |
| Symmetry.RotatePreserves | nqueens/board.go:105-114 | a quarter turn keeps queens on the board, keeps distinct rows and columns, and keeps non-attacking queens |
| Symmetry.FourTurnsIdentity | nqueens/board.go:109-110 | four quarter turns of every square give back every square |
| Symmetry.RotateTimesEntries | nqueens/nqueens.go:90-95 | after `k >= 1` turns the board is valid and row-sorted, and holds the `k`-fold turned queens |
| Symmetry.RotateFourTimes | nqueens/nqueens.go:90-95 | four turns of a row-sorted board with distinct rows give back the identical queen list, and the identical board when it is valid |
| Symmetry.RotateTimesImage | nqueens/nqueens.go:90-95 | with distinct rows and columns, `k` turns give exactly the row-sorted `k`-fold turned queens |
| NQueens.FirstFreeRow | nqueens/nqueens.go:22-28 | every row before the result is occupied, and the result is free or equals the board size (0 when the size is not positive) |
| NQueens.FreeRowsAfterSet | nqueens/nqueens.go:40-43 | placing a queen in a free row of a valid board frees one row fewer, so the recursion terminates |
| NQueens.GetAllSolutions | nqueens/nqueens.go:16-36 | a negative size yields no boards; a board whose every row is occupied (including size 0) is returned alone, unchecked |
| NQueens.IsEqual | nqueens/nqueens.go:71-83 | true exactly when the two queen lists are equal as sequences |
| NQueens.RemoveRelated | nqueens/nqueens.go:60-65 | keeps exactly the boards of the tail not related to the head |
| NQueens.ReduceBy | nqueens/nqueens.go:52-69 | no longer than its input; starts with the input's first board; keeps only input boards; no kept board is related to a later one, the direction the filter checks |
| NQueens.ReduceToFundamentalSolutions | nqueens/nqueens.go:50-69 | the same four facts for the equivalence check: no representative is equivalent to a later one, the direction the filter checks (the check is not symmetric on every pair of boards) |
| SolverProofs.StepKeepsSeed | nqueens/nqueens.go:39-40 | a safe placement in a free row keeps the board valid, sorted, distinct-rowed and on the board; it adds exactly the new queen; it keeps non-attacking queens non-attacking |
| SolverProofs.SolutionsSound | nqueens/nqueens.go:21-48 | every result has one queen per row `0..n-1` with columns in range, keeps the seed's queens, and is non-attacking when the seed is |
| SolverProofs.ExploreSound | nqueens/nqueens.go:38-46 | results of the column loop from column `x` are complete and put the new row's queen in column `x` or later |
| SolverProofs.AllSolutionsSound | nqueens/nqueens.go:16-48 | every solution from an empty board of size `n` has size `n`, valid caches, one queen per row in range, and no attacking pair |
| SolverProofs.SolutionsComplete | nqueens/nqueens.go:38-46 | every full non-attacking placement extending the seed is found |
| SolverProofs.SolutionsOrdered | nqueens/nqueens.go:38-46 | results come in strictly ascending lexicographic order of the columns row by row |
| SolverProofs.SolutionsExactlyOnce | nqueens/nqueens.go:38-46 | every placement extending the seed is found, and no two results have the same queens |
| SolverProofs.AllSolutionsComplete | nqueens/nqueens.go:16-48 | every full non-attacking placement of `n` queens appears exactly once among the solutions |
| SolverProofs.AscendingUnique | nqueens/nqueens.go:38-46 | two strictly ascending lists with the same members are equal |
| SolverProofs.SolutionsExactly | nqueens/nqueens.go:21-48 | from a non-attacking seed, the queen lists found are exactly the ascending list of the placements extending the seed |
| SolverProofs.AllSolutionsExactly | nqueens/nqueens.go:16-48 | from an empty board of size `n >= 0`, the queen lists found are exactly the ascending list of all full non-attacking placements |
| SolverProofs.OneQueenExtends | nqueens/board.go:66-84 | placements extending a one-queen board are the full solutions with that queen |
| SolverProofs.SeededSolutionsExactly | nqueens/nqueens_test.go:47-48 | seeded with one queen at `(x, y)`, the queen lists found are exactly the ascending list of the solutions with column `x` in row `y` |
| ReducerProofs.ReduceIsSubsequence | nqueens/nqueens.go:52-69 | the reduced list is an order-preserving subsequence of the input |
| ReducerProofs.ReduceCovers | nqueens/nqueens.go:54-66 | every input board is kept or is related to some kept representative |
| ReducerProofs.RemoveRelatedPrefix | nqueens/nqueens.go:60-65 | filtering a prefix of the tail keeps a prefix of what filtering the whole tail keeps |
| ReducerProofs.ReducePrefix | nqueens/nqueens.go:52-69 | reducing a prefix of the input gives a prefix of the reduction of the whole input |
| ReducerProofs.ReduceCoversEarlier | nqueens/nqueens.go:54-66 | the board at input index `j` is kept, or is related to a kept board that occurs in the input at or before index `j` |
| ReducerProofs.ReduceOfUnrelated | nqueens/nqueens.go:54-66 | a list with no related pair is returned unchanged |
| ReducerProofs.ReduceIdempotent | nqueens/nqueens.go:52-69 | reducing a reduced list changes nothing |
| NQueens.IsEquivalent | nqueens/nqueens.go:88-107 | for any two boards, equivalence implies the first board holds, in some order, the same squares as one of the eight symmetric variants of the second; the exact characterisation is `ReducerProofs.EquivalentIffVariant` |
| Symmetry.TurnedSquares | nqueens/nqueens.go:90-95 | on any board, `k` quarter turns (`k` from 1 to 4) hold, in some order, the squares of the unreflected `k`-turn variant, the fourth turn those of the zero-turn variant, the board's own squares |
| Symmetry.MirroredSquares | nqueens/nqueens.go:97-104 | on any board, the mirrored fourth turn after `k` more turns (`k` from 0 to 3) holds, in some order, the squares of the reflected `k`-turn variant |
| ReducerProofs.TurnVariants | nqueens/nqueens.go:89-95 | on a row-sorted board with distinct rows and columns, the four turned boards carry the turned, row-sorted queens, and the fourth turn gives back the board |
| ReducerProofs.MirroredFourthTurn | nqueens/nqueens.go:98 | on a row-sorted board with distinct rows and columns, the mirrored fourth turn is the mirror image of the original queens |
| ReducerProofs.EquivalentIffVariant | nqueens/nqueens.go:88-107 | for a row-sorted board with distinct rows and columns, equivalence holds exactly when the first board's queens are one of the eight row-sorted dihedral variants |
| ReducerProofs.EquivalentToItself | nqueens/nqueens.go:90-95 | a row-sorted board with distinct rows is equivalent to itself |
| ReducerProofs.MirrorImageEquivalent | nqueens/nqueens.go:97-104 | a board holding the mirror image of a row-sorted board's queens is equivalent to it when that board's queens are in distinct rows |
| ReducerProofs.FundamentalCovers | nqueens/nqueens.go:50-69 | every solution is a fundamental solution or one of the eight variants of one |
| ReducerProofs.FundamentalDistinctAndOrdered | nqueens/nqueens.go:50-69 | no fundamental solution is a variant of a later one, and the fundamental solutions keep the solver's order |
| SmallBoards.FourColumns | nqueens/nqueens_test.go:30 | the only four-queen column lists in range with no attacks are `1,3,0,2` and `2,0,3,1` |
| SmallBoards.FourQueensCount | nqueens/nqueens_test.go:30-40 | the 4-by-4 board has exactly two solutions, `1,3,0,2` first and then `2,0,3,1` |
| SmallBoards.FourQueensFundamental | nqueens/nqueens_test.go:42-45 | the 4-by-4 board has exactly one fundamental solution, `1,3,0,2` |
| SmallBoards.SeededFourCount | nqueens/nqueens_test.go:47-52 | seeded with a queen at column 0, row 2, the 4-by-4 search finds exactly one solution, `1,3,0,2` |
| SmallBoards.SeededCornerNone | nqueens/nqueens.go:38-47 | seeded with a queen at column 3, row 3, the 4-by-4 search finds nothing |

## Left out

- `Board.String` (`nqueens/board.go:116-156`) renders text only and plays no part in solving.
- The commented-out `main` (`nqueens/nqueens.go:4-14`), `Example`, `logSolutions` and the benchmarks in `nqueens/nqueens_test.go` only print and time.
- The 8-by-8 counts (92 solutions, 12 fundamental, 16 seeded at column 0, row 2) are not proved. They would need the 92 placements worked out inside the verifier. `SolverProofs.AllSolutionsExactly` reduces them to listing those placements.
- Go's maps, slices, aliasing and the in-place `setQueen` are modelled as immutable values. `SetQueen` therefore trivially leaves its receiver unchanged.
- `sort.Sort` is unstable. It is modelled by one fixed sort, with the uniqueness lemma above.
- Go `int` is 64 bits. The model uses unbounded integers, so `y-x`, `y+x` and `N-1-x` cannot wrap around. No board size reachable in practice comes near the limit.
- SolverProofs.AllSolutionsExactly: requires `n >= 0`; the negative case is stated by `NQueens.GetAllSolutions` (no boards at all).
- ReducerProofs.ReduceCovers: says every dropped board is related to some kept representative, without saying where that representative occurs; `ReducerProofs.ReduceCoversEarlier` adds that it occurs in the input no later than the dropped board.
- ReducerProofs.EquivalentIffVariant: holds when the second board's queens are row-sorted with distinct rows and columns, which includes every solution. On other boards the model proves only one direction, up to the order of the queens: the ensures of `NQueens.IsEquivalent`. It states no converse there.
- SolverProofs: every lemma about the search requires `SolverProofs.Seed` (valid caches, queens on the board, sorted by row, in distinct rows). `SetQueen` also accepts a second queen in an occupied row, e.g. `NewBoard(n).SetQueen(0, 2).SetQueen(1, 2)`, and the search runs from such a board as it is. For those seeds the model proves only the ensures of `NQueens.GetAllSolutions`. The sort order among queens sharing a row is then one fixed choice, which Go's unstable sort need not make.

=== FILE: board.dfy ===
/** The N-by-N board of nqueens/board.go: its size, the queen list, and four
    caches of occupied rows, columns, up-diagonals (`y-x`) and down-diagonals
    (`y+x`) that make the attack check constant-time. Boards are values: every
    operation returns a new board. */
module Boards {
  import opened Positions

  datatype Board = Board(
    n: int,
    queens: seq<Position>,
    rows: set<int>,
    cols: set<int>,
    upDiagonals: set<int>,
    downDiagonals: set<int>)

  /** Images of a queen list under the four cache keys. */
  function RowsOf(qs: seq<Position>): set<int> { set q | q in qs :: q.y }
  function ColsOf(qs: seq<Position>): set<int> { set q | q in qs :: q.x }
  function UpDiagonalsOf(qs: seq<Position>): set<int> { set q | q in qs :: UpDiagonal(q) }
  function DownDiagonalsOf(qs: seq<Position>): set<int> { set q | q in qs :: DownDiagonal(q) }

  /** The caches hold exactly what the queen list implies: they are never an
      independent source of truth. */
  ghost predicate Valid(b: Board) {
    && b.rows == RowsOf(b.queens)
    && b.cols == ColsOf(b.queens)
    && b.upDiagonals == UpDiagonalsOf(b.queens)
    && b.downDiagonals == DownDiagonalsOf(b.queens)
  }

  /** Lists with the same entries have the same caches. */
  lemma SameEntriesSameCaches(qs: seq<Position>, ps: seq<Position>)
    requires multiset(qs) == multiset(ps)
    ensures RowsOf(qs) == RowsOf(ps) && ColsOf(qs) == ColsOf(ps)
    ensures UpDiagonalsOf(qs) == UpDiagonalsOf(ps) && DownDiagonalsOf(qs) == DownDiagonalsOf(ps)
  {
    assert forall q :: q in qs <==> q in multiset(qs);
    assert forall q :: q in ps <==> q in multiset(ps);
  }

  /** An empty board of size `n`; no bound on `n` is enforced. */
  function NewBoard(n: int): (b: Board)
    ensures b.n == n && b.queens == []
    ensures Valid(b)
  {
    Board(n, [], {}, {}, {}, {})
  }

  /** True when no queen shares a row, column or diagonal with `(x, y)`.
      The coordinates are not checked against the board size. */
  function IsSafe(b: Board, x: int, y: int): (safe: bool)
    ensures Valid(b) ==> (safe <==> forall i :: 0 <= i < |b.queens| ==> !Attacks(b.queens[i], Position(x, y)))
  {
    if y in b.rows then false
    else if x in b.cols then false
    else if y - x in b.upDiagonals then false
    else if y + x in b.downDiagonals then false
    else true
  }

  /** The in-place `setQueen`: appends one queen and records its four keys. */
  function AddQueen(b: Board, q: Position): (r: Board)
    ensures r.n == b.n
    ensures r.queens == b.queens + [q]
    ensures r.rows == b.rows + {q.y} && r.cols == b.cols + {q.x}
    ensures r.upDiagonals == b.upDiagonals + {UpDiagonal(q)}
    ensures r.downDiagonals == b.downDiagonals + {DownDiagonal(q)}
    ensures Valid(b) ==> Valid(r)
  {
    var qs := b.queens + [q];
    assert forall p :: p in qs <==> p in b.queens || p == q;
    Board(b.n, qs, b.rows + {q.y}, b.cols + {q.x},
          b.upDiagonals + {q.y - q.x}, b.downDiagonals + {q.y + q.x})
  }

  /** A fresh board of size `n` on which the queens of `qs` are set one after
      another, in order (the loop shared by `Copy`, `Mirror` and
      `RotateClockwise`). */
  function Replay(n: int, qs: seq<Position>): (r: Board)
    ensures r.n == n && r.queens == qs
    ensures Valid(r)
    decreases |qs|
  {
    if |qs| == 0 then NewBoard(n)
    else
      assert qs == qs[..|qs| - 1] + [qs[|qs| - 1]];
      AddQueen(Replay(n, qs[..|qs| - 1]), qs[|qs| - 1])
  }

  /** A copy with the same size and queen list, and caches rebuilt from the queens. */
  function Copy(b: Board): (r: Board)
    ensures r.n == b.n && r.queens == b.queens
    ensures Valid(r)
    ensures Valid(b) ==> r == b
  {
    Replay(b.n, b.queens)
  }

  /** Some existing row lies below row `y`, so appending a queen in row `y`
      would break the by-row order. */
  predicate NeedsSort(b: Board, y: int) {
    exists y1 | y1 in b.rows :: y1 > y
  }

  /** A copy of `b` with the queen at `q` appended. */
  function CopyAndAdd(b: Board, q: Position): (r: Board)
    ensures r.n == b.n && Valid(r)
    ensures r.queens == b.queens + [q]
    ensures Valid(b) ==> r.rows == b.rows + {q.y} && r.cols == b.cols + {q.x}
    ensures Valid(b) ==> r.upDiagonals == b.upDiagonals + {UpDiagonal(q)}
    ensures Valid(b) ==> r.downDiagonals == b.downDiagonals + {DownDiagonal(q)}
  {
    AddQueen(Copy(b), q)
  }

  /** Copies the board and sets a queen at `(x, y)`, re-sorting the queens by
      row only when some existing row lies below `y`. Neither bounds nor
      safety are checked. */
  function SetQueen(b: Board, x: int, y: int): (r: Board)
    ensures r.n == b.n
    ensures Valid(r)
    ensures multiset(r.queens) == multiset(b.queens + [Position(x, y)])
    ensures !NeedsSort(b, y) ==> r.queens == b.queens + [Position(x, y)]
    ensures NeedsSort(b, y) ==> SortedByY(r.queens)
    ensures Valid(b) && SortedByY(b.queens) ==> SortedByY(r.queens)
    ensures Valid(b) ==> r.rows == b.rows + {y} && r.cols == b.cols + {x}
    ensures Valid(b) ==> r.upDiagonals == b.upDiagonals + {UpDiagonal(Position(x, y))}
    ensures Valid(b) ==> r.downDiagonals == b.downDiagonals + {DownDiagonal(Position(x, y))}
  {
    var placed := CopyAndAdd(b, Position(x, y));
    if NeedsSort(b, y) then
      var sorted := SortByY(placed.queens);
      SameEntriesSameCaches(sorted, placed.queens);
      placed.(queens := sorted)
    else
      AppendKeepsSorted(b, Position(x, y));
      placed
  }

  /** Appending a queen no higher-numbered row precedes keeps the list sorted. */
  lemma AppendKeepsSorted(b: Board, q: Position)
    requires !NeedsSort(b, q.y)
    ensures Valid(b) && SortedByY(b.queens) ==> SortedByY(b.queens + [q])
  {
    if Valid(b) && SortedByY(b.queens) {
      forall i | 0 <= i < |b.queens| ensures b.queens[i].y <= q.y {
        assert b.queens[i].y in b.rows;
      }
    }
  }

  /** The board reflected in its vertical axis: each queen `(x, y)` moves to
      `(n-1-x, y)`, the order of the queens is kept, and the caches are rebuilt. */
  function Mirror(b: Board): (r: Board)
    ensures r.n == b.n && Valid(r)
    ensures |r.queens| == |b.queens|
    ensures forall i :: 0 <= i < |b.queens| ==>
              r.queens[i] == Position(b.n - 1 - b.queens[i].x, b.queens[i].y)
  {
    Replay(b.n, ApplyAll(Reflection, b.n, b.queens))
  }

  /** The board turned a quarter clockwise: each queen `(x, y)` moves to
      `(n-1-y, x)`, and the new queen list is sorted by row. */
  function RotateClockwise(b: Board): (r: Board)
    ensures r.n == b.n && Valid(r)
    ensures SortedByY(r.queens)
    ensures multiset(r.queens) == multiset(ApplyAll(Rotation, b.n, b.queens))
  {
    var rotated := Replay(b.n, ApplyAll(Rotation, b.n, b.queens));
    var sorted := SortByY(rotated.queens);
    SameEntriesSameCaches(sorted, rotated.queens);
    rotated.(queens := sorted)
  }

  /** `k` successive clockwise quarter turns of a board, as the rotation loops
      of the equivalence check perform them. */
  function RotateTimes(b: Board, k: nat): (r: Board)
    ensures r.n == b.n
  {
    if k == 0 then b else RotateClockwise(RotateTimes(b, k - 1))
  }
}

=== FILE: nqueens.dfy ===
/** The solver and the symmetry reducer of nqueens/nqueens.go: backtracking
    over the first free row, order-sensitive board equality, equivalence under
    the eight symmetries of the square, and the greedy reduction to one
    representative per equivalence class. */
module NQueens {
  import opened Positions
  import opened Boards
  import opened Symmetry

  // ---------------------------------------------------------------------------
  // Backtracking search

  /** The first row at or after `y` that the cache does not mark occupied, or
      the first index at or past the board size when there is none. */
  function FirstFreeRowFrom(b: Board, y: int): (r: int)
    requires 0 <= y
    ensures y <= r
    ensures r == y || r <= b.n
    ensures r < b.n ==> r !in b.rows
    ensures forall k :: y <= k < r ==> k in b.rows
    decreases b.n - y
  {
    if y < b.n && y in b.rows then FirstFreeRowFrom(b, y + 1) else y
  }

  /** The row the search fills next: the first unoccupied row, or the board
      size when every row is occupied, or 0 when the size is not positive. */
  function FirstFreeRow(b: Board): (y: int)
    ensures 0 <= y
    ensures b.n <= 0 ==> y == 0
    ensures b.n >= 0 ==> y <= b.n
    ensures y < b.n ==> y !in b.rows
    ensures forall k :: 0 <= k < y ==> k in b.rows
  {
    FirstFreeRowFrom(b, 0)
  }

  /** 0 for a board whose caches are valid: every board the search builds. */
  ghost function Rank(b: Board): nat { if Valid(b) then 0 else 1 }

  /** Rows of the board the cache does not mark occupied. */
  function FreeRows(b: Board): set<int> {
    set y | 0 <= y < b.n && y !in b.rows
  }

  /** All completions of `b`: the board itself when every row is occupied,
      otherwise the completions of every safe placement in the first free row,
      column by column. */
  function Solutions(b: Board): seq<Board>
    decreases Rank(b), FreeRows(b), 3, 0
  {
    var y := FirstFreeRow(b);
    if y == b.n then [b] else Explore(b, y, 0)
  }

  /** The completions found by trying columns `x`, `x+1`, ..., `n-1` of row `y`. */
  function Explore(b: Board, y: int, x: int): seq<Board>
    requires 0 <= x
    requires b.n > 0 ==> 0 <= y < b.n && y !in b.rows
    decreases Rank(b), FreeRows(b), 2, b.n - x
  {
    if x >= b.n then [] else TryColumn(b, y, x) + Explore(b, y, x + 1)
  }

  /** One pass of the column loop: the completions with the next queen at
      `(x, y)`, or none when that square is attacked. */
  function TryColumn(b: Board, y: int, x: int): seq<Board>
    requires 0 <= x < b.n && 0 <= y < b.n && y !in b.rows
    decreases Rank(b), FreeRows(b), 1, 0
  {
    if IsSafe(b, x, y) then SolutionsWith(b, x, y) else []
  }

  /** The recursive call: all completions of the board with a queen set at `(x, y)`. */
  function SolutionsWith(b: Board, x: int, y: int): seq<Board>
    requires 0 <= y < b.n && y !in b.rows
    decreases Rank(b), FreeRows(b), 0, 0
  {
    var b1 := SetQueen(b, x, y);
    FreeRowsAfterSet(b, b1, y);
    Solutions(b1)
  }

  /** Setting a queen in free row `y` of a valid board frees one row fewer. */
  lemma FreeRowsAfterSet(b: Board, b1: Board, y: int)
    requires 0 <= y < b.n && y !in b.rows
    requires b1.n == b.n && (Valid(b) ==> b1.rows == b.rows + {y})
    ensures Valid(b) ==> y in FreeRows(b) && FreeRows(b1) == FreeRows(b) - {y}
  {
  }

  /** The entry point: every completion of the seed board. The seed is not
      checked for conflicts between its own queens. */
  function GetAllSolutions(start: Board): (solutions: seq<Board>)
    ensures start.n < 0 ==> solutions == []
    ensures 0 <= start.n && (forall y :: 0 <= y < start.n ==> y in start.rows) ==> solutions == [start]
  {
    assert start.n < 0 ==> FirstFreeRow(start) == 0 && Explore(start, 0, 0) == [];
    Solutions(start)
  }

  // ---------------------------------------------------------------------------
  // Equality and equivalence

  /** Order-sensitive comparison of the queen lists, entry by entry. */
  function IsEqual(b: Board, b1: Board): (equal: bool)
    ensures equal <==> b.queens == b1.queens
  {
    |b.queens| == |b1.queens| && forall i :: 0 <= i < |b.queens| ==> b.queens[i] == b1.queens[i]
  }

  /** True when `b` equals one of the eight variants of `b1`, tried in this
      order: one to four quarter turns of `b1`, then the mirror of the fourth
      turn followed by zero to three quarter turns. Whatever the boards,
      equivalent boards hold the same squares as one of the eight symmetric
      images. */
  function IsEquivalent(b: Board, b1: Board): (equivalent: bool)
    ensures equivalent ==> SameSquaresAsVariant(b.queens, b1.n, b1.queens)
  {
    TurnedSquares(b1, 1); TurnedSquares(b1, 2); TurnedSquares(b1, 3); TurnedSquares(b1, 4);
    MirroredSquares(b1, 0); MirroredSquares(b1, 1); MirroredSquares(b1, 2); MirroredSquares(b1, 3);
    || IsEqual(b, RotateTimes(b1, 1))
    || IsEqual(b, RotateTimes(b1, 2))
    || IsEqual(b, RotateTimes(b1, 3))
    || IsEqual(b, RotateTimes(b1, 4))
    || var mirrored := Mirror(RotateTimes(b1, 4));
       || IsEqual(b, mirrored)
       || IsEqual(b, RotateTimes(mirrored, 1))
       || IsEqual(b, RotateTimes(mirrored, 2))
       || IsEqual(b, RotateTimes(mirrored, 3))
  }

  // ---------------------------------------------------------------------------
  // Reduction to fundamental solutions

  /** The boards of `tail` not related to `head`, in their order (the inner
      loop of the reducer, with the relation as a parameter). */
  function RemoveRelated(related: (Board, Board) -> bool, head: Board, tail: seq<Board>): (kept: seq<Board>)
    ensures |kept| <= |tail|
    ensures forall c :: c in kept <==> c in tail && !related(head, c)
  {
    if |tail| == 0 then []
    else (if related(head, tail[0]) then [] else [tail[0]]) + RemoveRelated(related, head, tail[1..])
  }

  /** Keeps the first remaining board as a representative, drops every
      remaining board related to it, and repeats until none remain. */
  function ReduceBy(related: (Board, Board) -> bool, solutions: seq<Board>): (reduced: seq<Board>)
    ensures |reduced| <= |solutions|
    ensures |solutions| > 0 ==> |reduced| > 0 && reduced[0] == solutions[0]
    ensures forall c :: c in reduced ==> c in solutions
    ensures forall i, j :: 0 <= i < j < |reduced| ==> !related(reduced[i], reduced[j])
    decreases |solutions|
  {
    if |solutions| == 0 then []
    else
      var head := solutions[0];
      var kept := RemoveRelated(related, head, solutions[1..]);
      var rest := ReduceBy(related, kept);
      KeepHead(related, solutions, kept, rest);
      [head] + rest
  }

  /** Putting the head in front of the reduced survivors keeps every entry
      from the input and no related pair. */
  lemma KeepHead(related: (Board, Board) -> bool, solutions: seq<Board>, kept: seq<Board>, rest: seq<Board>)
    requires |solutions| > 0
    requires forall c :: c in kept <==> c in solutions[1..] && !related(solutions[0], c)
    requires forall c :: c in rest ==> c in kept
    requires forall i, j :: 0 <= i < j < |rest| ==> !related(rest[i], rest[j])
    ensures forall c :: c in [solutions[0]] + rest ==> c in solutions
    ensures forall i, j :: 0 <= i < j < |[solutions[0]] + rest| ==>
              !related(([solutions[0]] + rest)[i], ([solutions[0]] + rest)[j])
  {
    var reduced := [solutions[0]] + rest;
    forall c | c in reduced ensures c in solutions {
      if c != solutions[0] {
        assert c in rest;
      }
    }
    forall i, j | 0 <= i < j < |reduced| ensures !related(reduced[i], reduced[j]) {
      assert reduced[j] == rest[j - 1];
      if i == 0 {
        assert rest[j - 1] in rest;
      } else {
        assert reduced[i] == rest[i - 1];
      }
    }
  }

  /** The fundamental solutions: the boards kept in first-occurrence order,
      no kept board equivalent to a later one (the direction the filter
      checks). On solver output this is one board per class of eight
      variants; see ReducerProofs.FundamentalCovers and
      ReducerProofs.FundamentalDistinctAndOrdered. */
  function ReduceToFundamentalSolutions(solutions: seq<Board>): (reduced: seq<Board>)
    ensures |reduced| <= |solutions|
    ensures |solutions| > 0 ==> |reduced| > 0 && reduced[0] == solutions[0]
    ensures forall c :: c in reduced ==> c in solutions
    ensures forall i, j :: 0 <= i < j < |reduced| ==> !IsEquivalent(reduced[i], reduced[j])
  {
    ReduceBy(IsEquivalent, solutions)
  }
}

=== FILE: positions.dfy ===
/** Queen positions, the by-row ordering of a queen list, and the two geometric
    moves (reflection and quarter turn) applied square by square. */
module Positions {

  /** A square of the board: column `x` and row `y`, both counted from 0. */
  datatype Position = Position(x: int, y: int)

  /** Key of the up-diagonal through `p`; constant along that diagonal. */
  function UpDiagonal(p: Position): int { p.y - p.x }

  /** Key of the down-diagonal through `p`; constant along that diagonal. */
  function DownDiagonal(p: Position): int { p.y + p.x }

  /** Two queens attack each other when they share a row, a column or a diagonal. */
  predicate Attacks(p: Position, q: Position) {
    p.y == q.y || p.x == q.x || UpDiagonal(p) == UpDiagonal(q) || DownDiagonal(p) == DownDiagonal(q)
  }

  predicate Peaceful(p: Position, q: Position) { !Attacks(p, q) }

  predicate DifferentRows(p: Position, q: Position) { p.y != q.y }

  predicate DifferentRowsAndColumns(p: Position, q: Position) { p.x != q.x && p.y != q.y }

  /** `rel` holds between every two entries of `s` at different indices. */
  ghost predicate Pairwise(s: seq<Position>, rel: (Position, Position) -> bool) {
    forall i, j :: 0 <= i < |s| && 0 <= j < |s| && i != j ==> rel(s[i], s[j])
  }

  /** No two queens attack each other (in particular no square is used twice). */
  ghost predicate NonAttacking(s: seq<Position>) { Pairwise(s, Peaceful) }

  ghost predicate DistinctRows(s: seq<Position>) { Pairwise(s, DifferentRows) }

  ghost predicate DistinctRowsAndColumns(s: seq<Position>) { Pairwise(s, DifferentRowsAndColumns) }

  /** Every queen lies on the `n`-by-`n` board. */
  ghost predicate InRange(s: seq<Position>, n: int) {
    forall q :: q in s ==> 0 <= q.x < n && 0 <= q.y < n
  }

  /** The ordering `byY` sorts by: ascending row. */
  ghost predicate SortedByY(s: seq<Position>) {
    forall i, j :: 0 <= i < j < |s| ==> s[i].y <= s[j].y
  }

  /** Inserts `p` in front of the first entry whose row is not smaller. */
  function InsertByY(p: Position, s: seq<Position>): (r: seq<Position>)
    ensures multiset(r) == multiset(s) + multiset{p}
    ensures SortedByY(s) ==> SortedByY(r)
  {
    if |s| == 0 || p.y <= s[0].y then
      InsertFront(p, s);
      [p] + s
    else
      var rest := InsertByY(p, s[1..]);
      InsertLater(p, s, rest);
      [s[0]] + rest
  }

  /** Putting `p` in front of entries whose rows are not smaller keeps the order. */
  lemma InsertFront(p: Position, s: seq<Position>)
    requires |s| == 0 || p.y <= s[0].y
    ensures multiset([p] + s) == multiset(s) + multiset{p}
    ensures SortedByY(s) ==> SortedByY([p] + s)
  {
    if SortedByY(s) && |s| > 0 {
      assert forall j :: 0 <= j < |s| ==> s[0].y <= s[j].y;
    }
  }

  /** Keeping the first entry in front of the insertion into the rest keeps the order. */
  lemma InsertLater(p: Position, s: seq<Position>, rest: seq<Position>)
    requires |s| > 0 && s[0].y < p.y
    requires multiset(rest) == multiset(s[1..]) + multiset{p}
    requires SortedByY(s[1..]) ==> SortedByY(rest)
    ensures multiset([s[0]] + rest) == multiset(s) + multiset{p}
    ensures SortedByY(s) ==> SortedByY([s[0]] + rest)
  {
    assert s == [s[0]] + s[1..];
    if SortedByY(s) {
      forall j | 0 <= j < |rest|
        ensures s[0].y <= rest[j].y
      {
        InsertedFrom(p, s[1..], rest, j);
      }
    }
  }

  /** Every entry of an insertion result is the inserted queen or an old entry. */
  lemma InsertedFrom(p: Position, s: seq<Position>, r: seq<Position>, j: int)
    requires multiset(r) == multiset(s) + multiset{p}
    requires 0 <= j < |r|
    ensures r[j] == p || exists m :: 0 <= m < |s| && s[m] == r[j]
  {
    assert r[j] in multiset(r);
  }

  /** Sorting a queen list by row. The source uses the unstable `sort.Sort`;
      this is one sort whose result is a permutation sorted by row, and by
      `SortedPermutationUnique` every such permutation is this one when rows
      are distinct. */
  function SortByY(s: seq<Position>): (r: seq<Position>)
    ensures multiset(r) == multiset(s)
    ensures SortedByY(r)
  {
    if |s| == 0 then []
    else
      assert s == [s[0]] + s[1..];
      InsertByY(s[0], SortByY(s[1..]))
  }

  /** The two moves the board offers, acting on one square of an `n`-by-`n` board. */
  datatype Transform = Reflection | Rotation

  /** Reflection keeps the row and maps column `x` to `n-1-x`; the clockwise
      quarter turn sends `(x, y)` to `(n-1-y, x)`. */
  function Apply(t: Transform, n: int, p: Position): Position {
    match t
    case Reflection => Position(n - 1 - p.x, p.y)
    case Rotation => Position(n - 1 - p.y, p.x)
  }

  /** `Apply` to every queen, keeping the order. */
  function ApplyAll(t: Transform, n: int, s: seq<Position>): (r: seq<Position>)
    ensures |r| == |s|
    ensures forall i :: 0 <= i < |s| ==> r[i] == Apply(t, n, s[i])
  {
    seq(|s|, i requires 0 <= i < |s| => Apply(t, n, s[i]))
  }

  /** `k` successive quarter turns of every queen. */
  function Turns(k: nat, n: int, s: seq<Position>): (r: seq<Position>)
    ensures |r| == |s|
  {
    if k == 0 then s else ApplyAll(Rotation, n, Turns(k - 1, n, s))
  }

  // ---------------------------------------------------------------------------
  // Lemmas about permutations

  /** Removing the entry at index `k` from a sequence removes one copy of it
      from the multiset. */
  lemma RemoveAt(u: seq<Position>, k: int)
    requires 0 <= k < |u|
    ensures u == u[..k] + [u[k]] + u[k+1..]
    ensures multiset(u[..k] + u[k+1..]) == multiset(u) - multiset{u[k]}
  {
    assert u == u[..k] + [u[k]] + u[k+1..];
  }

  /** Dropping the first entry keeps a pairwise property. */
  lemma PairwiseTail(s: seq<Position>, rel: (Position, Position) -> bool)
    requires |s| > 0 && Pairwise(s, rel)
    ensures Pairwise(s[1..], rel)
  {
    forall i, j | 0 <= i < |s| - 1 && 0 <= j < |s| - 1 && i != j
      ensures rel(s[1..][i], s[1..][j])
    {
      assert s[1..][i] == s[i + 1] && s[1..][j] == s[j + 1];
      assert rel(s[i + 1], s[j + 1]);
    }
  }

  /** Putting an entry back at index `k` keeps a pairwise property when the
      entry is related both ways to every other one. */
  lemma PairwiseReinsert(u: seq<Position>, k: int, rel: (Position, Position) -> bool)
    requires 0 <= k < |u|
    requires Pairwise(u[..k] + u[k+1..], rel)
    requires forall j :: 0 <= j < |u| && j != k ==> rel(u[k], u[j]) && rel(u[j], u[k])
    ensures Pairwise(u, rel)
  {
    var u' := u[..k] + u[k+1..];
    forall i, j | 0 <= i < |u| && 0 <= j < |u| && i != j && i != k && j != k
      ensures rel(u[i], u[j])
    {
      var i' := if i < k then i else i - 1;
      var j' := if j < k then j else j - 1;
      assert u'[i'] == u[i] && u'[j'] == u[j];
    }
  }

  /** Locates the first entry of `s` in its permutation `u`; what remains of
      `u` without it is a permutation of the rest of `s`. */
  lemma FindFirst(s: seq<Position>, u: seq<Position>) returns (k: int)
    requires |s| > 0 && multiset(s) == multiset(u)
    ensures 0 <= k < |u| && u[k] == s[0]
    ensures multiset(u[..k] + u[k+1..]) == multiset(s[1..])
  {
    assert s == [s[0]] + s[1..];
    assert s[0] in multiset(u);
    k :| 0 <= k < |u| && u[k] == s[0];
    RemoveAt(u, k);
  }

  /** Every entry of `u` other than the one at `k` is an entry of `s[1..]`. */
  lemma OtherEntry(s: seq<Position>, u: seq<Position>, k: int, j: int) returns (m: int)
    requires |s| > 0 && 0 <= k < |u| && multiset(u[..k] + u[k+1..]) == multiset(s[1..])
    requires 0 <= j < |u| && j != k
    ensures 1 <= m < |s| && s[m] == u[j]
  {
    var u' := u[..k] + u[k+1..];
    var j' := if j < k then j else j - 1;
    assert u'[j'] == u[j];
    assert u[j] in multiset(s[1..]);
    var m' :| 0 <= m' < |s[1..]| && s[1..][m'] == u[j];
    m := m' + 1;
  }

  /** A pairwise property survives any reordering of the sequence. */
  lemma {:induction false} PairwisePermutation(s: seq<Position>, u: seq<Position>, rel: (Position, Position) -> bool)
    requires multiset(s) == multiset(u)
    requires Pairwise(s, rel)
    ensures Pairwise(u, rel)
    decreases |s|
  {
    if |s| == 0 {
      assert |u| == |multiset(u)| == 0;
    } else {
      var k := FindFirst(s, u);
      PairwiseTail(s, rel);
      PairwisePermutation(s[1..], u[..k] + u[k+1..], rel);
      forall j | 0 <= j < |u| && j != k
        ensures rel(u[k], u[j]) && rel(u[j], u[k])
      {
        var m := OtherEntry(s, u, k, j);
        assert rel(s[0], s[m]) && rel(s[m], s[0]);
      }
      PairwiseReinsert(u, k, rel);
    }
  }

  /** Two sorted permutations of a list with distinct rows start with the
      same entry. */
  lemma SortedHeadsEqual(a: seq<Position>, b: seq<Position>)
    requires SortedByY(a) && SortedByY(b)
    requires multiset(a) == multiset(b)
    requires DistinctRows(a)
    requires |a| > 0 && |b| > 0
    ensures a[0] == b[0]
  {
    assert a[0] in multiset(b);
    var k :| 0 <= k < |b| && b[k] == a[0];
    assert b[0] in multiset(a);
    var m :| 0 <= m < |a| && a[m] == b[0];
    assert a[m].y <= a[0].y;
    RowsDiffer(a, 0, m);
  }

  /** Entries at different indices of a list with distinct rows have different rows. */
  lemma RowsDiffer(a: seq<Position>, i: int, j: int)
    ensures DistinctRows(a) && 0 <= i < |a| && 0 <= j < |a| && i != j ==> a[i].y != a[j].y
  {
    if DistinctRows(a) && 0 <= i < |a| && 0 <= j < |a| && i != j {
      assert DifferentRows(a[i], a[j]);
    }
  }

  /** Dropping equal heads of two permutations leaves permutations. */
  lemma TailsPermutation(a: seq<Position>, b: seq<Position>)
    requires multiset(a) == multiset(b)
    requires |a| > 0 && |b| > 0 && a[0] == b[0]
    ensures multiset(a[1..]) == multiset(b[1..])
  {
    assert a == [a[0]] + a[1..];
    assert b == [b[0]] + b[1..];
    assert multiset(a) == multiset{a[0]} + multiset(a[1..]);
    assert multiset(b) == multiset{a[0]} + multiset(b[1..]);
    forall p ensures multiset(a[1..])[p] == multiset(b[1..])[p] {
      assert multiset(a)[p] == multiset(b)[p];
    }
  }

  /** A sorted permutation of a list with distinct rows is unique: this is why
      the choice of sorting algorithm does not matter for such lists. */
  lemma {:induction false} SortedPermutationUnique(a: seq<Position>, b: seq<Position>)
    requires SortedByY(a) && SortedByY(b)
    requires multiset(a) == multiset(b)
    requires DistinctRows(a)
    ensures a == b
    decreases |a|
  {
    assert |a| == |multiset(a)| == |multiset(b)| == |b|;
    if |a| > 0 {
      SortedHeadsEqual(a, b);
      TailsPermutation(a, b);
      PairwiseTail(a, DifferentRows);
      SortedPermutationUnique(a[1..], b[1..]);
      assert a == [a[0]] + a[1..];
      assert b == [b[0]] + b[1..];
    }
  }

  /** Two permutations of one list with distinct rows, both sorted by row, are equal. */
  lemma SortedPermutationsEqual(a: seq<Position>, b: seq<Position>, c: seq<Position>)
    requires SortedByY(a) && SortedByY(b)
    requires multiset(a) == multiset(c) && multiset(b) == multiset(c)
    requires DistinctRows(c)
    ensures a == b
  {
    PairwisePermutation(c, a, DifferentRows);
    SortedPermutationUnique(a, b);
  }

  /** Applying a move to a concatenation applies it to each part. */
  lemma ApplyAllConcat(t: Transform, n: int, a: seq<Position>, b: seq<Position>)
    ensures ApplyAll(t, n, a + b) == ApplyAll(t, n, a) + ApplyAll(t, n, b)
  {
  }

  /** Applying a move square by square commutes with reordering the list. */
  lemma {:induction false} ApplyAllPermutation(t: Transform, n: int, s: seq<Position>, u: seq<Position>)
    requires multiset(s) == multiset(u)
    ensures multiset(ApplyAll(t, n, s)) == multiset(ApplyAll(t, n, u))
    decreases |s|
  {
    if |s| == 0 {
      assert |u| == |multiset(u)| == 0;
    } else {
      var a := s[0];
      assert s == [a] + s[1..];
      var k := FindFirst(s, u);
      var u' := u[..k] + u[k+1..];
      assert u == u[..k] + [a] + u[k+1..];
      ApplyAllPermutation(t, n, s[1..], u');
      ApplyAllConcat(t, n, [a], s[1..]);
      ApplyAllConcat(t, n, u[..k] + [a], u[k+1..]);
      ApplyAllConcat(t, n, u[..k], [a]);
      ApplyAllConcat(t, n, u[..k], u[k+1..]);
      assert ApplyAll(t, n, [a]) == [Apply(t, n, a)];
    }
  }

  /** Quarter turns, too, commute with reordering the list. */
  lemma {:induction false} TurnsPermutation(k: nat, n: int, s: seq<Position>, u: seq<Position>)
    requires multiset(s) == multiset(u)
    ensures multiset(Turns(k, n, s)) == multiset(Turns(k, n, u))
  {
    if k > 0 {
      TurnsPermutation(k - 1, n, s, u);
      ApplyAllPermutation(Rotation, n, Turns(k - 1, n, s), Turns(k - 1, n, u));
    }
  }

  /** Lists with the same entries are in range together. */
  lemma PermutationKeepsRange(s: seq<Position>, u: seq<Position>, n: int)
    requires multiset(s) == multiset(u)
    ensures InRange(s, n) <==> InRange(u, n)
  {
    assert forall q :: q in s <==> q in multiset(s);
    assert forall q :: q in u <==> q in multiset(u);
  }

  /** Appending an entry related both ways to every existing one keeps a
      pairwise property. */
  lemma AppendPairwise(s: seq<Position>, p: Position, rel: (Position, Position) -> bool)
    requires Pairwise(s, rel)
    requires forall i :: 0 <= i < |s| ==> rel(s[i], p) && rel(p, s[i])
    ensures Pairwise(s + [p], rel)
  {
    var t := s + [p];
    forall i, j | 0 <= i < |t| && 0 <= j < |t| && i != j ensures rel(t[i], t[j]) {
      if i < |s| && j < |s| {
        assert t[i] == s[i] && t[j] == s[j];
      }
    }
  }

  // ---------------------------------------------------------------------------
  // A sorted list with one queen in every row

  /** Some queen of `qs` stands in row `k`. */
  ghost predicate HasRow(qs: seq<Position>, k: int) {
    exists i :: 0 <= i < |qs| && qs[i].y == k
  }

  /** Entries of a list sorted by row with distinct rows have strictly
      increasing rows, so the row at index `i` is at least `i` above the first. */
  lemma {:induction false} RowAtLeastIndex(qs: seq<Position>, i: int)
    requires SortedByY(qs) && DistinctRows(qs)
    requires 0 <= i < |qs|
    ensures qs[i].y >= qs[0].y + i
  {
    if i > 0 {
      RowAtLeastIndex(qs, i - 1);
      assert DifferentRows(qs[i - 1], qs[i]);
    }
  }

  /** Rows `0..r` of such a list, when rows `0..n-1` all occur in it and all
      lie in `[0, n)`, sit at their own index. */
  lemma {:induction false} RowIsIndex(qs: seq<Position>, n: int, r: int)
    requires SortedByY(qs) && DistinctRows(qs) && InRange(qs, n)
    requires forall k :: 0 <= k < n ==> HasRow(qs, k)
    requires 0 <= r < n
    ensures r < |qs|
    ensures forall k :: 0 <= k <= r ==> k < |qs| && qs[k].y == k
    decreases r
  {
    if r > 0 {
      RowIsIndex(qs, n, r - 1);
    }
    assert HasRow(qs, r);
    var k :| 0 <= k < |qs| && qs[k].y == r;
    if k < r {
      assert false;
    }
    if k > r {
      assert qs[0] in qs;
      RowAtLeastIndex(qs, r);
      assert false;
    }
  }

  /** A list sorted by row, with distinct rows in `[0, n)`, in which every row
      of `[0, n)` occurs, holds exactly one queen per row, row `i` at index `i`. */
  lemma RowsCoverBoard(qs: seq<Position>, n: int)
    requires 0 <= n
    requires SortedByY(qs) && DistinctRows(qs) && InRange(qs, n)
    requires forall k :: 0 <= k < n ==> HasRow(qs, k)
    ensures |qs| == n
    ensures forall i :: 0 <= i < |qs| ==> qs[i].y == i
  {
    if n > 0 {
      RowIsIndex(qs, n, n - 1);
    }
    if |qs| > n {
      assert qs[0] in qs && qs[|qs| - 1] in qs;
      RowAtLeastIndex(qs, |qs| - 1);
      assert false;
    }
  }
}

=== FILE: reducer_proofs.dfy ===
/** What the reduction to fundamental solutions of nqueens/nqueens.go computes.
    For any relation: the result keeps the input's order, every input board is
    either kept or related to a kept board, and a list with no related pair
    is returned unchanged (so reducing twice is reducing once). For the
    equivalence check: on a board listed by row with queens in distinct rows
    and columns, `IsEquivalent` holds exactly when the first board is one of
    the eight symmetric images of the second. */
module ReducerProofs {
  import opened Positions
  import opened Boards
  import opened NQueens
  import opened Symmetry
  import opened SolverProofs

  // ---------------------------------------------------------------------------
  // The reducer, for any relation

  /** `a` is `s` with some entries dropped and the order of the rest kept. */
  ghost predicate SubsequenceOf(a: seq<Board>, s: seq<Board>)
    decreases |s|
  {
    || |a| == 0
    || (&& |s| > 0
        && (|| (a[0] == s[0] && SubsequenceOf(a[1..], s[1..]))
            || SubsequenceOf(a, s[1..])))
  }

  /** Dropping entries twice is dropping entries once. */
  lemma {:induction false} SubsequenceTransitive(a: seq<Board>, b: seq<Board>, c: seq<Board>)
    requires SubsequenceOf(a, b) && SubsequenceOf(b, c)
    ensures SubsequenceOf(a, c)
    decreases |c|
  {
    if |a| > 0 {
      if SubsequenceOf(b, c[1..]) {
        SubsequenceTransitive(a, b, c[1..]);
      } else if a[0] == b[0] && SubsequenceOf(a[1..], b[1..]) {
        SubsequenceTransitive(a[1..], b[1..], c[1..]);
      } else {
        SubsequenceTransitive(a, b[1..], c[1..]);
      }
    }
  }

  /** The inner loop keeps the order of the boards it keeps. */
  lemma {:induction false} RemoveRelatedIsSubsequence(related: (Board, Board) -> bool, head: Board, tail: seq<Board>)
    ensures SubsequenceOf(RemoveRelated(related, head, tail), tail)
    decreases |tail|
  {
    if |tail| > 0 {
      var kept := RemoveRelated(related, head, tail);
      var rest := RemoveRelated(related, head, tail[1..]);
      RemoveRelatedIsSubsequence(related, head, tail[1..]);
      if related(head, tail[0]) {
        assert kept == rest;
      } else {
        assert kept == [tail[0]] + rest;
        assert kept[1..] == rest;
      }
    }
  }

  /** The representatives appear in the order of the input. */
  lemma {:induction false} ReduceIsSubsequence(related: (Board, Board) -> bool, solutions: seq<Board>)
    ensures SubsequenceOf(ReduceBy(related, solutions), solutions)
    decreases |solutions|
  {
    if |solutions| > 0 {
      var head := solutions[0];
      var kept := RemoveRelated(related, head, solutions[1..]);
      var reduced := ReduceBy(related, solutions);
      assert reduced == [head] + ReduceBy(related, kept);
      ReduceIsSubsequence(related, kept);
      RemoveRelatedIsSubsequence(related, head, solutions[1..]);
      SubsequenceTransitive(ReduceBy(related, kept), kept, solutions[1..]);
      assert reduced[1..] == ReduceBy(related, kept);
    }
  }

  /** One pass of the outer loop: the head is kept and the reducer carries on
      with the boards of the tail not related to it. */
  lemma ReduceStep(related: (Board, Board) -> bool, solutions: seq<Board>)
    requires |solutions| > 0
    ensures ReduceBy(related, solutions) ==
            [solutions[0]] + ReduceBy(related, RemoveRelated(related, solutions[0], solutions[1..]))
  {
  }

  /** `c` is one of `reduced`, or related to one of them. */
  ghost predicate Represented(related: (Board, Board) -> bool, reduced: seq<Board>, c: Board) {
    exists i :: 0 <= i < |reduced| && (reduced[i] == c || related(reduced[i], c))
  }

  /** Putting a representative in front keeps every represented board
      represented, and represents the boards it stands for. */
  lemma ConsRepresented(related: (Board, Board) -> bool, head: Board, rest: seq<Board>, c: Board)
    requires c == head || related(head, c) || Represented(related, rest, c)
    ensures Represented(related, [head] + rest, c)
  {
    var reduced := [head] + rest;
    if c == head || related(head, c) {
      assert reduced[0] == head;
    } else {
      var i :| 0 <= i < |rest| && (rest[i] == c || related(rest[i], c));
      assert reduced[i + 1] == rest[i];
    }
  }

  /** Every input board is kept, or is related to a kept board (its
      representative), which comes first in the relation. */
  lemma {:induction false} ReduceCovers(related: (Board, Board) -> bool, solutions: seq<Board>, c: Board)
    requires c in solutions
    ensures Represented(related, ReduceBy(related, solutions), c)
    decreases |solutions|
  {
    var head := solutions[0];
    var kept := RemoveRelated(related, head, solutions[1..]);
    ReduceStep(related, solutions);
    if c != head && !related(head, c) {
      assert c in solutions[1..];
      ReduceCovers(related, kept, c);
    }
    ConsRepresented(related, head, ReduceBy(related, kept), c);
  }

  /** The inner loop run on a prefix of the tail keeps a prefix of what it
      keeps from the whole tail. */
  lemma {:induction false} RemoveRelatedPrefix(related: (Board, Board) -> bool, head: Board, a: seq<Board>, u: seq<Board>)
    requires a <= u
    ensures RemoveRelated(related, head, a) <= RemoveRelated(related, head, u)
    decreases |a|
  {
    if |a| > 0 {
      assert a[0] == u[0] && a[1..] <= u[1..];
      RemoveRelatedPrefix(related, head, a[1..], u[1..]);
    }
  }

  /** Reducing a prefix of the input gives a prefix of the reduction: the
      greedy choice at each board depends only on the boards before it. */
  lemma {:induction false} ReducePrefix(related: (Board, Board) -> bool, a: seq<Board>, u: seq<Board>)
    requires a <= u
    ensures ReduceBy(related, a) <= ReduceBy(related, u)
    decreases |u|
  {
    if |a| > 0 {
      assert a[0] == u[0] && a[1..] <= u[1..];
      ReduceStep(related, a);
      ReduceStep(related, u);
      RemoveRelatedPrefix(related, u[0], a[1..], u[1..]);
      ReducePrefix(related, RemoveRelated(related, u[0], a[1..]), RemoveRelated(related, u[0], u[1..]));
    }
  }

  /** The board at index `j` of the input is kept, or dropped for a kept
      board that occurs in the input at or before index `j`. */
  lemma ReduceCoversEarlier(related: (Board, Board) -> bool, s: seq<Board>, j: int)
    requires 0 <= j < |s|
    ensures exists i :: 0 <= i < |ReduceBy(related, s)| && ReduceBy(related, s)[i] in s[..j + 1] &&
              (ReduceBy(related, s)[i] == s[j] || related(ReduceBy(related, s)[i], s[j]))
  {
    var p := s[..j + 1];
    assert p[j] == s[j];
    ReduceCovers(related, p, s[j]);
    ReducePrefix(related, p, s);
    var i :| 0 <= i < |ReduceBy(related, p)| && (ReduceBy(related, p)[i] == s[j] || related(ReduceBy(related, p)[i], s[j]));
    assert ReduceBy(related, p)[i] == ReduceBy(related, s)[i];
  }

  /** No board of `s` is related to a later one. */
  ghost predicate Unrelated(related: (Board, Board) -> bool, s: seq<Board>) {
    forall i, j :: 0 <= i < j < |s| ==> !related(s[i], s[j])
  }

  /** The inner loop keeps every board not related to the head. */
  lemma {:induction false} RemoveNothing(related: (Board, Board) -> bool, head: Board, tail: seq<Board>)
    requires forall j :: 0 <= j < |tail| ==> !related(head, tail[j])
    ensures RemoveRelated(related, head, tail) == tail
    decreases |tail|
  {
    if |tail| > 0 {
      RemoveNothing(related, head, tail[1..]);
      assert tail == [tail[0]] + tail[1..];
    }
  }

  /** A list with no board related to a later one is its own reduction. */
  lemma {:induction false} ReduceOfUnrelated(related: (Board, Board) -> bool, s: seq<Board>)
    requires Unrelated(related, s)
    ensures ReduceBy(related, s) == s
    decreases |s|
  {
    if |s| > 0 {
      var tail := s[1..];
      forall j | 0 <= j < |tail| ensures !related(s[0], tail[j]) {
        assert tail[j] == s[j + 1];
      }
      RemoveNothing(related, s[0], tail);
      forall i, j | 0 <= i < j < |tail| ensures !related(tail[i], tail[j]) {
        assert tail[i] == s[i + 1] && tail[j] == s[j + 1];
      }
      ReduceOfUnrelated(related, tail);
      assert s == [s[0]] + tail;
    }
  }

  /** Reducing a reduced list changes nothing. */
  lemma ReduceIdempotent(related: (Board, Board) -> bool, s: seq<Board>)
    ensures ReduceBy(related, ReduceBy(related, s)) == ReduceBy(related, s)
  {
    ReduceOfUnrelated(related, ReduceBy(related, s));
  }

  // ---------------------------------------------------------------------------
  // The equivalence check

  /** A list already sorted by row, in distinct rows, is its own zero-turn variant. */
  lemma SortedIsOwnVariant(n: int, qs: seq<Position>)
    requires SortedByY(qs) && DistinctRows(qs)
    ensures Variant(false, 0, n, qs) == qs
  {
    SortedPermutationsEqual(Variant(false, 0, n, qs), qs, qs);
  }

  /** The four quarter turns tried first are the unreflected variants; the
      fourth turn is the board itself. */
  lemma TurnVariants(b1: Board)
    requires SortedByY(b1.queens) && DistinctRowsAndColumns(b1.queens)
    ensures RotateTimes(b1, 1).queens == Variant(false, 1, b1.n, b1.queens)
    ensures RotateTimes(b1, 2).queens == Variant(false, 2, b1.n, b1.queens)
    ensures RotateTimes(b1, 3).queens == Variant(false, 3, b1.n, b1.queens)
    ensures RotateTimes(b1, 4).queens == Variant(false, 0, b1.n, b1.queens)
    ensures RotateTimes(b1, 4).queens == b1.queens
  {
    RotateTimesImage(b1, 1);
    RotateTimesImage(b1, 2);
    RotateTimesImage(b1, 3);
    PairwiseWeaken(b1.queens);
    RotateFourTimes(b1);
    SortedIsOwnVariant(b1.n, b1.queens);
  }

  /** The mirror of the fourth turn is the mirror of the board itself. */
  lemma MirroredFourthTurn(b1: Board)
    requires SortedByY(b1.queens) && DistinctRowsAndColumns(b1.queens)
    ensures Mirror(RotateTimes(b1, 4)).n == b1.n
    ensures Mirror(RotateTimes(b1, 4)).queens == ApplyAll(Reflection, b1.n, b1.queens)
  {
    PairwiseWeaken(b1.queens);
    RotateFourTimes(b1);
  }

  /** The four mirrored checks are the reflected variants. */
  lemma MirrorVariants(b1: Board, mirrored: Board)
    requires SortedByY(b1.queens) && DistinctRowsAndColumns(b1.queens)
    requires mirrored.n == b1.n && mirrored.queens == ApplyAll(Reflection, b1.n, b1.queens)
    ensures mirrored.queens == Variant(true, 0, b1.n, b1.queens)
    ensures RotateTimes(mirrored, 1).queens == Variant(true, 1, b1.n, b1.queens)
    ensures RotateTimes(mirrored, 2).queens == Variant(true, 2, b1.n, b1.queens)
    ensures RotateTimes(mirrored, 3).queens == Variant(true, 3, b1.n, b1.queens)
  {
    var m := mirrored.queens;
    ApplyAllKeepsPairwise(Reflection, b1.n, b1.queens);
    PairwiseWeaken(m);
    assert SortedByY(m);
    SortedPermutationsEqual(Variant(true, 0, b1.n, b1.queens), m, m);
    RotateTimesImage(mirrored, 1);
    RotateTimesImage(mirrored, 2);
    RotateTimesImage(mirrored, 3);
  }

  /** `qs` is one of the eight symmetric images of `qs1` on an `n`-by-`n` board. */
  ghost predicate IsVariant(qs: seq<Position>, n: int, qs1: seq<Position>) {
    exists reflect: bool, k: nat :: k < 4 && qs == Variant(reflect, k, n, qs1)
  }

  /** The eight comparisons of the equivalence check, as queen-list equalities. */
  lemma EquivalentChecks(b: Board, b1: Board, mirrored: Board)
    requires mirrored == Mirror(RotateTimes(b1, 4))
    ensures IsEquivalent(b, b1) <==>
              || IsEqual(b, RotateTimes(b1, 1))
              || IsEqual(b, RotateTimes(b1, 2))
              || IsEqual(b, RotateTimes(b1, 3))
              || IsEqual(b, RotateTimes(b1, 4))
              || IsEqual(b, mirrored)
              || IsEqual(b, RotateTimes(mirrored, 1))
              || IsEqual(b, RotateTimes(mirrored, 2))
              || IsEqual(b, RotateTimes(mirrored, 3))
  {
  }

  /** The eight images, as the disjunction the variant predicate quantifies over. */
  lemma VariantCases(qs: seq<Position>, n: int, qs1: seq<Position>)
    ensures IsVariant(qs, n, qs1) <==>
              || qs == Variant(false, 0, n, qs1)
              || qs == Variant(false, 1, n, qs1)
              || qs == Variant(false, 2, n, qs1)
              || qs == Variant(false, 3, n, qs1)
              || qs == Variant(true, 0, n, qs1)
              || qs == Variant(true, 1, n, qs1)
              || qs == Variant(true, 2, n, qs1)
              || qs == Variant(true, 3, n, qs1)
  {
    if IsVariant(qs, n, qs1) {
      var reflect: bool, k: nat :| k < 4 && qs == Variant(reflect, k, n, qs1);
      assert k == 0 || k == 1 || k == 2 || k == 3;
    }
  }

  /** For a second board listed by row with queens in distinct rows and
      columns (every full solution is one), the equivalence check holds
      exactly when the first board's queen list is one of the eight symmetric
      images of the second's. */
  lemma EquivalentIffVariant(b: Board, b1: Board)
    requires SortedByY(b1.queens) && DistinctRowsAndColumns(b1.queens)
    ensures IsEquivalent(b, b1) <==> IsVariant(b.queens, b1.n, b1.queens)
  {
    var mirrored := Mirror(RotateTimes(b1, 4));
    EquivalentChecks(b, b1, mirrored);
    TurnChecks(b, b1);
    MirroredFourthTurn(b1);
    MirrorChecks(b, b1, mirrored);
    VariantCases(b.queens, b1.n, b1.queens);
  }

  /** The four turn comparisons are the four unreflected variants. */
  lemma TurnChecks(b: Board, b1: Board)
    requires SortedByY(b1.queens) && DistinctRowsAndColumns(b1.queens)
    ensures (|| IsEqual(b, RotateTimes(b1, 1))
             || IsEqual(b, RotateTimes(b1, 2))
             || IsEqual(b, RotateTimes(b1, 3))
             || IsEqual(b, RotateTimes(b1, 4)))
            <==>
            (|| b.queens == Variant(false, 0, b1.n, b1.queens)
             || b.queens == Variant(false, 1, b1.n, b1.queens)
             || b.queens == Variant(false, 2, b1.n, b1.queens)
             || b.queens == Variant(false, 3, b1.n, b1.queens))
  {
    TurnVariants(b1);
  }

  /** The four mirrored comparisons are the four reflected variants. */
  lemma MirrorChecks(b: Board, b1: Board, mirrored: Board)
    requires SortedByY(b1.queens) && DistinctRowsAndColumns(b1.queens)
    requires mirrored.n == b1.n && mirrored.queens == ApplyAll(Reflection, b1.n, b1.queens)
    ensures (|| IsEqual(b, mirrored)
             || IsEqual(b, RotateTimes(mirrored, 1))
             || IsEqual(b, RotateTimes(mirrored, 2))
             || IsEqual(b, RotateTimes(mirrored, 3)))
            <==>
            (|| b.queens == Variant(true, 0, b1.n, b1.queens)
             || b.queens == Variant(true, 1, b1.n, b1.queens)
             || b.queens == Variant(true, 2, b1.n, b1.queens)
             || b.queens == Variant(true, 3, b1.n, b1.queens))
  {
    MirrorVariants(b1, mirrored);
  }

  /** A board listed by row with queens in distinct rows is equivalent to
      itself: its fourth quarter turn gives back its queen list. */
  lemma EquivalentToItself(b: Board)
    requires SortedByY(b.queens) && DistinctRows(b.queens)
    ensures IsEquivalent(b, b)
  {
    RotateFourTimes(b);
    assert IsEqual(b, RotateTimes(b, 4));
  }

  /** A board whose queen list is the mirror image of a board listed by row,
      in distinct rows, is equivalent to it: the check's first mirrored
      comparison, after four turns that give the board back, matches. */
  lemma MirrorImageEquivalent(a: Board, c: Board)
    requires SortedByY(c.queens) && DistinctRows(c.queens)
    requires a.queens == ApplyAll(Reflection, c.n, c.queens)
    ensures IsEquivalent(a, c)
  {
    var mirrored := Mirror(RotateTimes(c, 4));
    RotateFourTimes(c);
    assert IsEqual(a, mirrored);
    EquivalentChecks(a, c, mirrored);
  }

  // ---------------------------------------------------------------------------
  // Fundamental solutions of the search from the empty board

  /** A full non-attacking placement is listed by row, in distinct rows and columns. */
  lemma PlacementShape(qs: seq<Position>, n: int)
    requires Complete(qs, n) && NonAttacking(qs)
    ensures SortedByY(qs) && DistinctRowsAndColumns(qs)
  {
    forall i, j | 0 <= i < |qs| && 0 <= j < |qs| && i != j
      ensures DifferentRowsAndColumns(qs[i], qs[j])
    {
      assert Peaceful(qs[i], qs[j]);
    }
  }

  /** Every search result from the empty board is listed by row with queens in
      distinct rows and columns, the shape the equivalence characterisation needs. */
  lemma SolutionShape(n: int, c: Board)
    requires c in GetAllSolutions(NewBoard(n))
    ensures c.n == n && SortedByY(c.queens) && DistinctRowsAndColumns(c.queens)
  {
    AllSolutionsSound(n);
    PlacementShape(c.queens, n);
  }

  /** Every solution has a fundamental representative: itself, or a kept board
      whose queen list is one of the solution's eight symmetric images. */
  lemma FundamentalCovers(n: int, c: Board)
    requires c in GetAllSolutions(NewBoard(n))
    ensures exists i :: 0 <= i < |ReduceToFundamentalSolutions(GetAllSolutions(NewBoard(n)))| &&
              var f := ReduceToFundamentalSolutions(GetAllSolutions(NewBoard(n)))[i];
              f == c || IsVariant(f.queens, n, c.queens)
  {
    var all := GetAllSolutions(NewBoard(n));
    var fundamental := ReduceToFundamentalSolutions(all);
    assert fundamental == ReduceBy(IsEquivalent, all);
    ReduceCovers(IsEquivalent, all, c);
    var i :| 0 <= i < |fundamental| && (fundamental[i] == c || IsEquivalent(fundamental[i], c));
    SolutionShape(n, c);
    EquivalentIffVariant(fundamental[i], c);
  }

  /** No fundamental solution is a symmetric image of a later one, and they
      come in the order the search found them. */
  lemma FundamentalDistinctAndOrdered(n: int)
    ensures forall i, j :: 0 <= i < j < |ReduceToFundamentalSolutions(GetAllSolutions(NewBoard(n)))| ==>
              !IsVariant(ReduceToFundamentalSolutions(GetAllSolutions(NewBoard(n)))[i].queens, n,
                         ReduceToFundamentalSolutions(GetAllSolutions(NewBoard(n)))[j].queens)
    ensures SubsequenceOf(ReduceToFundamentalSolutions(GetAllSolutions(NewBoard(n))), GetAllSolutions(NewBoard(n)))
  {
    var all := GetAllSolutions(NewBoard(n));
    var fundamental := ReduceToFundamentalSolutions(all);
    assert fundamental == ReduceBy(IsEquivalent, all);
    ReduceIsSubsequence(IsEquivalent, all);
    forall i, j | 0 <= i < j < |fundamental|
      ensures !IsVariant(fundamental[i].queens, n, fundamental[j].queens)
    {
      SolutionShape(n, fundamental[j]);
      EquivalentIffVariant(fundamental[i], fundamental[j]);
    }
  }
}

=== FILE: small_boards.dfy ===
/** The 4-by-4 board, worked out in full: the two solutions, their single
    fundamental solution, and searches seeded with one queen. The size and
    the seed square are parameters fixed by `requires`, so that the proofs
    reason from the general theorems rather than by unfolding the search. */
module SmallBoards {
  import opened Positions
  import opened Boards
  import opened NQueens
  import opened SolverProofs
  import opened ReducerProofs

  /** Columns of the solution with its row-0 queen in column 1. */
  function FirstColumns(): seq<int> { [1, 3, 0, 2] }

  /** Columns of the solution with its row-0 queen in column 2: the mirror image of the first. */
  function SecondColumns(): seq<int> { [2, 0, 3, 1] }

  /** Four queens, one per row, pairwise in different columns and diagonals,
      written as conditions on their columns. */
  predicate FourApart(cs: seq<int>)
    requires |cs| == 4
  {
    && cs[0] != cs[1] && cs[0] - cs[1] != 1 && cs[1] - cs[0] != 1
    && cs[1] != cs[2] && cs[1] - cs[2] != 1 && cs[2] - cs[1] != 1
    && cs[2] != cs[3] && cs[2] - cs[3] != 1 && cs[3] - cs[2] != 1
    && cs[0] != cs[2] && cs[0] - cs[2] != 2 && cs[2] - cs[0] != 2
    && cs[1] != cs[3] && cs[1] - cs[3] != 2 && cs[3] - cs[1] != 2
    && cs[0] != cs[3] && cs[0] - cs[3] != 3 && cs[3] - cs[0] != 3
  }

  /** The column conditions say exactly that the placement is non-attacking. */
  lemma FourApartIffNonAttacking(cs: seq<int>)
    requires |cs| == 4
    ensures FourApart(cs) <==> NonAttacking(Placement(cs))
  {
    var qs := Placement(cs);
    if FourApart(cs) {
      forall i, j | 0 <= i < 4 && 0 <= j < 4 && i != j ensures Peaceful(qs[i], qs[j]) {
        assert qs[i] == Position(cs[i], i) && qs[j] == Position(cs[j], j);
      }
    }
    if NonAttacking(qs) {
      assert Peaceful(qs[0], qs[1]) && Peaceful(qs[0], qs[2]) && Peaceful(qs[0], qs[3]);
      assert Peaceful(qs[1], qs[2]) && Peaceful(qs[1], qs[3]) && Peaceful(qs[2], qs[3]);
    }
  }

  /** Columns in `[0, 4)` that keep four queens apart are 1, 3, 0, 2 or 2, 0, 3, 1. */
  lemma FourColumns(cs: seq<int>)
    requires |cs| == 4 && forall i :: 0 <= i < 4 ==> 0 <= cs[i] < 4
    requires FourApart(cs)
    ensures cs == FirstColumns() || cs == SecondColumns()
  {
    var c0, c1, c2, c3 := cs[0], cs[1], cs[2], cs[3];
    assert (c0 == 1 && c1 == 3 && c2 == 0 && c3 == 2) || (c0 == 2 && c1 == 0 && c2 == 3 && c3 == 1);
    assert cs == [c0, c1, c2, c3];
  }

  /** Every full non-attacking placement of four queens is one of the two. */
  lemma FourPlacements(cs: seq<int>)
    requires |cs| == 4 && forall i :: 0 <= i < 4 ==> 0 <= cs[i] < 4
    requires NonAttacking(Placement(cs))
    ensures cs == FirstColumns() || cs == SecondColumns()
  {
    FourApartIffNonAttacking(cs);
    FourColumns(cs);
  }

  /** Both column lists describe non-attacking placements. */
  lemma FourSolutions()
    ensures NonAttacking(Placement(FirstColumns())) && NonAttacking(Placement(SecondColumns()))
  {
    FourApartIffNonAttacking(FirstColumns());
    FourApartIffNonAttacking(SecondColumns());
  }

  /** The first solution comes first in column order. */
  lemma FourOrder()
    ensures ColumnLess(Placement(FirstColumns()), Placement(SecondColumns()))
  {
    var a := Placement(FirstColumns());
    var b := Placement(SecondColumns());
    assert a[..0] == b[..0] && a[0].x < b[0].x;
  }

  /** The first solution is the mirror image of the second. */
  lemma FourMirror(n: int)
    requires n == 4
    ensures ApplyAll(Reflection, n, Placement(SecondColumns())) == Placement(FirstColumns())
  {
    var a := Placement(FirstColumns());
    var m := ApplyAll(Reflection, n, Placement(SecondColumns()));
    forall i | 0 <= i < 4 ensures m[i] == a[i] {
    }
  }

  /** The full non-attacking placements of four queens are exactly the two. */
  lemma FourSolved(n: int)
    requires n == 4
    ensures forall cs :: Solves(cs, n) <==> cs in [FirstColumns(), SecondColumns()]
  {
    forall cs ensures Solves(cs, n) <==> cs in [FirstColumns(), SecondColumns()] {
      if Solves(cs, n) {
        FourPlacements(cs);
      }
      if cs in [FirstColumns(), SecondColumns()] {
        FourSolutions();
      }
    }
  }

  /** The search from the empty 4-by-4 board finds exactly the two
      solutions, the one with the row-0 queen in column 1 first. */
  lemma FourQueensCount(n: int)
    requires n == 4
    ensures |GetAllSolutions(NewBoard(n))| == 2
    ensures GetAllSolutions(NewBoard(n))[0].queens == Placement(FirstColumns())
    ensures GetAllSolutions(NewBoard(n))[1].queens == Placement(SecondColumns())
  {
    var ps := [FirstColumns(), SecondColumns()];
    FourSolved(n);
    FourOrder();
    AllSolutionsExactly(n, ps);
    assert QueenLists(GetAllSolutions(NewBoard(n)))[0] == Placements(ps)[0];
    assert QueenLists(GetAllSolutions(NewBoard(n)))[1] == Placements(ps)[1];
  }

  /** The 4-by-4 board has a single fundamental solution: the first one found. */
  lemma FourQueensFundamental(n: int)
    requires n == 4
    ensures |ReduceToFundamentalSolutions(GetAllSolutions(NewBoard(n)))| == 1
    ensures ReduceToFundamentalSolutions(GetAllSolutions(NewBoard(n)))[0].queens == Placement(FirstColumns())
  {
    var s := GetAllSolutions(NewBoard(n));
    FourQueensCount(n);
    SolutionShape(n, s[1]);
    FourMirror(n);
    MirrorImageEquivalent(s[0], s[1]);
    ReduceStep(IsEquivalent, s);
    assert RemoveRelated(IsEquivalent, s[0], s[1..]) == [];
  }

  /** The search seeded with a queen at column `x`, row `y` of the empty
      4-by-4 board returns the solutions with that queen, in column order. */
  lemma SeededFour(n: int, x: int, y: int, ps: seq<seq<int>>)
    requires n == 4 && 0 <= x < 4 && 0 <= y < 4
    requires forall cs :: cs in ps <==> cs in [FirstColumns(), SecondColumns()] && cs[y] == x
    requires |ps| <= 1
    ensures QueenLists(GetAllSolutions(SetQueen(NewBoard(n), x, y))) == Placements(ps)
  {
    FourSolved(n);
    SeededSolutionsExactly(n, x, y, ps);
  }

  /** Seeded with a queen at column 0, row 2, the search finds exactly one solution. */
  lemma SeededFourCount(n: int, x: int, y: int)
    requires n == 4 && x == 0 && y == 2
    ensures |GetAllSolutions(SetQueen(NewBoard(n), x, y))| == 1
    ensures GetAllSolutions(SetQueen(NewBoard(n), x, y))[0].queens == Placement(FirstColumns())
  {
    var ps := [FirstColumns()];
    assert FirstColumns()[y] == x && SecondColumns()[y] != x;
    SeededFour(n, x, y, ps);
    assert QueenLists(GetAllSolutions(SetQueen(NewBoard(n), x, y)))[0] == Placements(ps)[0];
  }

  /** Seeded with a queen in the corner at column 3, row 3, the search finds nothing. */
  lemma SeededCornerNone(n: int, x: int, y: int)
    requires n == 4 && x == 3 && y == 3
    ensures GetAllSolutions(SetQueen(NewBoard(n), x, y)) == []
  {
    assert FirstColumns()[y] != x && SecondColumns()[y] != x;
    SeededFour(n, x, y, []);
  }
}

=== FILE: solver_proofs.dfy ===
/** What the backtracking search of nqueens/nqueens.go computes: from a seed
    whose queens are on the board in distinct rows, every result is a full
    placement (one queen per row) that keeps the seed's queens and adds only
    safe queens; every non-attacking full placement extending the seed is
    found exactly once; and results come in ascending order of their columns. */
module SolverProofs {
  import opened Positions
  import opened Boards
  import opened NQueens

  /** A seed the search can complete: valid caches, a non-negative size,
      queens on the board, listed by row, in distinct rows. Every board built
      from `NewBoard` by `SetQueen` calls on distinct in-range rows and
      in-range columns is one. */
  ghost predicate Seed(b: Board) {
    && Valid(b)
    && 0 <= b.n
    && InRange(b.queens, b.n)
    && SortedByY(b.queens)
    && DistinctRows(b.queens)
  }

  /** One queen in each row `0..n-1`, listed by row, with columns in `[0, n)`. */
  ghost predicate Complete(qs: seq<Position>, n: int) {
    |qs| == n && forall i :: 0 <= i < |qs| ==> qs[i].y == i && 0 <= qs[i].x < n
  }

  /** What every result `r` of a search from `b` satisfies. */
  ghost predicate Completes(b: Board, r: Board) {
    && r.n == b.n
    && Valid(r)
    && Complete(r.queens, b.n)
    && (forall q :: q in b.queens ==> q in r.queens)
    && (NonAttacking(b.queens) ==> NonAttacking(r.queens))
  }

  /** The placement with the queen of row `i` in column `cs[i]`. */
  ghost function Placement(cs: seq<int>): (qs: seq<Position>)
    ensures |qs| == |cs|
    ensures forall i :: 0 <= i < |cs| ==> qs[i] == Position(cs[i], i)
  {
    seq(|cs|, i requires 0 <= i < |cs| => Position(cs[i], i))
  }

  /** `cs` describes a full non-attacking placement on `b`'s board that keeps
      every queen of `b`. */
  ghost predicate Extends(cs: seq<int>, b: Board) {
    && |cs| == b.n
    && (forall i :: 0 <= i < |cs| ==> 0 <= cs[i] < b.n)
    && NonAttacking(Placement(cs))
    && (forall q :: q in b.queens ==> q in Placement(cs))
  }

  /** Column sequences in lexicographic order: equal up to some row, then a
      smaller column in that row. */
  ghost predicate ColumnLess(a: seq<Position>, c: seq<Position>) {
    exists k :: 0 <= k < |a| && k < |c| && a[..k] == c[..k] && a[k].x < c[k].x
  }

  /** Results listed in strictly ascending column order. */
  ghost predicate Ascending(rs: seq<Board>) {
    forall i, j :: 0 <= i < j < |rs| ==> ColumnLess(rs[i].queens, rs[j].queens)
  }

  // ---------------------------------------------------------------------------
  // Single steps

  /** In a full placement the queen of row `p.y` is found at index `p.y`. */
  lemma CompleteRowEntry(qs: seq<Position>, n: int, p: Position)
    requires Complete(qs, n)
    requires p in qs
    ensures 0 <= p.y < n && qs[p.y] == p
  {
    var k :| 0 <= k < |qs| && qs[k] == p;
  }

  /** A seed with every row occupied is itself a full placement. */
  lemma FilledSeedComplete(b: Board)
    requires Seed(b)
    requires forall k :: 0 <= k < b.n ==> k in b.rows
    ensures Complete(b.queens, b.n)
  {
    forall k | 0 <= k < b.n ensures HasRow(b.queens, k) {
      assert k in RowsOf(b.queens);
      var q :| q in b.queens && q.y == k;
      var i :| 0 <= i < |b.queens| && b.queens[i] == q;
    }
    RowsCoverBoard(b.queens, b.n);
    forall i | 0 <= i < |b.queens| ensures 0 <= b.queens[i].x < b.n {
      assert b.queens[i] in b.queens;
    }
  }

  /** What one `SetQueen` call does to a board, stated without unfolding it:
      same size, valid caches, one more queen, the row recorded, and the
      by-row order kept. */
  ghost predicate Step(b: Board, p: Position, b1: Board) {
    && b1.n == b.n
    && Valid(b1)
    && multiset(b1.queens) == multiset(b.queens + [p])
    && (Valid(b) ==> b1.rows == b.rows + {p.y})
    && (Valid(b) && SortedByY(b.queens) ==> SortedByY(b1.queens))
  }

  lemma SetQueenStep(b: Board, x: int, y: int)
    ensures Step(b, Position(x, y), SetQueen(b, x, y))
  {
  }

  /** Setting a queen in a free row leaves one free row fewer. */
  lemma StepFreeRows(b: Board, p: Position, b1: Board)
    requires Valid(b) && Step(b, p, b1) && 0 <= p.y < b.n && p.y !in b.rows
    ensures p.y in FreeRows(b) && FreeRows(b1) == FreeRows(b) - {p.y}
  {
  }

  /** A step keeps the old queens, adds the new one, and nothing else. */
  lemma StepEntries(b: Board, p: Position, b1: Board)
    requires Step(b, p, b1)
    ensures forall q :: q in b1.queens <==> q in b.queens || q == p
  {
    var ext := b.queens + [p];
    assert forall q :: q in b1.queens <==> q in multiset(ext);
    assert forall q :: q in ext <==> q in b.queens || q == p;
  }

  /** A pairwise relation that holds between the new queen and every old one
      still holds after the step. */
  lemma StepKeepsPairwise(b: Board, p: Position, b1: Board, rel: (Position, Position) -> bool)
    requires Step(b, p, b1)
    requires Pairwise(b.queens, rel)
    requires forall i :: 0 <= i < |b.queens| ==> rel(b.queens[i], p) && rel(p, b.queens[i])
    ensures Pairwise(b1.queens, rel)
  {
    AppendPairwise(b.queens, p, rel);
    PairwisePermutation(b.queens + [p], b1.queens, rel);
  }

  /** A step onto a free row keeps the rows distinct. */
  lemma StepKeepsDistinctRows(b: Board, p: Position, b1: Board)
    requires Valid(b) && DistinctRows(b.queens) && Step(b, p, b1) && p.y !in b.rows
    ensures DistinctRows(b1.queens)
  {
    forall i | 0 <= i < |b.queens| ensures DifferentRows(b.queens[i], p) && DifferentRows(p, b.queens[i]) {
      assert b.queens[i] in b.queens;
    }
    StepKeepsPairwise(b, p, b1, DifferentRows);
  }

  /** A step onto a square on the board keeps every queen on the board. */
  lemma StepKeepsRange(b: Board, p: Position, b1: Board)
    requires InRange(b.queens, b.n) && Step(b, p, b1) && 0 <= p.x < b.n && 0 <= p.y < b.n
    ensures InRange(b1.queens, b.n)
  {
    var ext := b.queens + [p];
    assert InRange(ext, b.n);
    PermutationKeepsRange(ext, b1.queens, b.n);
  }

  /** A step onto a square no queen attacks keeps the queens non-attacking. */
  lemma StepKeepsPeace(b: Board, p: Position, b1: Board)
    requires NonAttacking(b.queens) && Step(b, p, b1)
    requires forall i :: 0 <= i < |b.queens| ==> !Attacks(b.queens[i], p)
    ensures NonAttacking(b1.queens)
  {
    StepKeepsPairwise(b, p, b1, Peaceful);
  }

  /** Placing a safe queen in a free row of a seed gives a seed with one free
      row fewer that holds the old queens and the new one and nothing else,
      and keeps non-attacking queens non-attacking. */
  lemma StepKeepsSeed(b: Board, x: int, y: int)
    requires Seed(b)
    requires 0 <= x < b.n && 0 <= y < b.n && y !in b.rows
    requires IsSafe(b, x, y)
    ensures Seed(SetQueen(b, x, y))
    ensures y in FreeRows(b) && FreeRows(SetQueen(b, x, y)) == FreeRows(b) - {y}
    ensures forall q :: q in SetQueen(b, x, y).queens <==> q in b.queens || q == Position(x, y)
    ensures NonAttacking(b.queens) ==> NonAttacking(SetQueen(b, x, y).queens)
  {
    var p := Position(x, y);
    var b1 := SetQueen(b, x, y);
    SetQueenStep(b, x, y);
    StepFreeRows(b, p, b1);
    StepEntries(b, p, b1);
    StepKeepsDistinctRows(b, p, b1);
    StepKeepsRange(b, p, b1);
    if NonAttacking(b.queens) {
      StepKeepsPeace(b, p, b1);
    }
  }

  // ---------------------------------------------------------------------------
  // The search, one equation at a time. Each unfolding lives in its own small
  // lemma; the inductive proofs below only combine them.

  lemma SolutionsWhenFull(b: Board)
    requires FirstFreeRow(b) == b.n
    ensures Solutions(b) == [b]
  {
  }

  lemma SolutionsWhenOpen(b: Board)
    requires FirstFreeRow(b) != b.n
    ensures Solutions(b) == Explore(b, FirstFreeRow(b), 0)
  {
  }

  lemma ExploreEnd(b: Board, y: int, x: int)
    requires 0 <= y < b.n <= x && y !in b.rows
    ensures Explore(b, y, x) == []
  {
  }

  lemma ExploreStep(b: Board, y: int, x: int)
    requires 0 <= x < b.n && 0 <= y < b.n && y !in b.rows
    ensures Explore(b, y, x) == TryColumn(b, y, x) + Explore(b, y, x + 1)
  {
  }

  lemma TryColumnSafe(b: Board, y: int, x: int)
    requires 0 <= x < b.n && 0 <= y < b.n && y !in b.rows
    requires IsSafe(b, x, y)
    ensures TryColumn(b, y, x) == SolutionsWith(b, x, y)
  {
  }

  lemma SolutionsWithStep(b: Board, x: int, y: int)
    requires 0 <= y < b.n && y !in b.rows
    ensures SolutionsWith(b, x, y) == Solutions(SetQueen(b, x, y))
  {
  }

  lemma TryColumnUnsafe(b: Board, y: int, x: int)
    requires 0 <= x < b.n && 0 <= y < b.n && y !in b.rows
    requires !IsSafe(b, x, y)
    ensures TryColumn(b, y, x) == []
  {
  }

  /** A result of the column loop from `x` comes from column `x` or from a later one. */
  lemma ExploreSplit(b: Board, y: int, x: int, r: Board)
    requires 0 <= x < b.n && 0 <= y < b.n && y !in b.rows
    requires r in Explore(b, y, x)
    ensures r in TryColumn(b, y, x) || (x + 1 < b.n && r in Explore(b, y, x + 1))
  {
    ExploreStep(b, y, x);
    if x + 1 >= b.n {
      ExploreEnd(b, y, x + 1);
    }
  }

  lemma ExploreKeepsLater(b: Board, y: int, x: int, r: Board)
    requires 0 <= x < b.n && 0 <= y < b.n && y !in b.rows
    requires r in Explore(b, y, x + 1)
    ensures r in Explore(b, y, x)
  {
    ExploreStep(b, y, x);
  }

  lemma ExploreKeepsColumn(b: Board, y: int, x: int, r: Board)
    requires 0 <= x < b.n && 0 <= y < b.n && y !in b.rows
    requires r in TryColumn(b, y, x)
    ensures r in Explore(b, y, x)
  {
    ExploreStep(b, y, x);
  }

  // ---------------------------------------------------------------------------
  // Soundness

  /** Every result of a search from a seed is a full placement with valid
      caches that keeps the seed's queens, and is non-attacking when the seed is. */
  lemma {:induction false} SolutionsSound(b: Board, r: Board)
    requires Seed(b) && r in Solutions(b)
    ensures Completes(b, r)
    decreases Rank(b), FreeRows(b), 3, 0
  {
    var y := FirstFreeRow(b);
    if y == b.n {
      SolutionsWhenFull(b);
      FilledSeedComplete(b);
    } else {
      SolutionsWhenOpen(b);
      ExploreSound(b, y, 0, r);
    }
  }

  /** The results of trying columns `x..n-1` of the first free row `y`
      complete the seed and have their row-`y` queen in column `x` or later. */
  lemma {:induction false} ExploreSound(b: Board, y: int, x: int, r: Board)
    requires Seed(b) && y == FirstFreeRow(b) && y < b.n && 0 <= x < b.n
    requires r in Explore(b, y, x)
    ensures Completes(b, r) && x <= r.queens[y].x
    decreases Rank(b), FreeRows(b), 2, b.n - x
  {
    ExploreSplit(b, y, x, r);
    if r in TryColumn(b, y, x) {
      TryColumnSound(b, y, x, r);
    } else {
      ExploreSound(b, y, x + 1, r);
    }
  }

  /** The results with the next queen at `(x, y)` complete the seed and have
      their row-`y` queen in column `x`. */
  lemma {:induction false} TryColumnSound(b: Board, y: int, x: int, r: Board)
    requires Seed(b) && y == FirstFreeRow(b) && y < b.n && 0 <= x < b.n
    requires r in TryColumn(b, y, x)
    ensures Completes(b, r) && r.queens[y].x == x
    decreases Rank(b), FreeRows(b), 1, 0
  {
    if IsSafe(b, x, y) {
      TryColumnSafe(b, y, x);
      SolutionsWithSound(b, x, y, r);
    } else {
      TryColumnUnsafe(b, y, x);
    }
  }

  lemma {:induction false} SolutionsWithSound(b: Board, x: int, y: int, r: Board)
    requires Seed(b) && y == FirstFreeRow(b) && y < b.n && 0 <= x < b.n && IsSafe(b, x, y)
    requires r in SolutionsWith(b, x, y)
    ensures Completes(b, r) && r.queens[y].x == x
    decreases Rank(b), FreeRows(b), 0, 0
  {
    SolutionsWithStep(b, x, y);
    StepKeepsSeed(b, x, y);
    SolutionsSound(SetQueen(b, x, y), r);
    CompleteRowEntry(r.queens, b.n, Position(x, y));
  }

  /** The results of a search from the empty board of any size `n` have `n`
      queens, one in each row `0..n-1`, columns in `[0, n)`, no two attacking. */
  lemma AllSolutionsSound(n: int)
    ensures forall r :: r in GetAllSolutions(NewBoard(n)) ==>
              r.n == n && Valid(r) && Complete(r.queens, n) && NonAttacking(r.queens)
  {
    var b := NewBoard(n);
    forall r | r in GetAllSolutions(b)
      ensures r.n == n && Valid(r) && Complete(r.queens, n) && NonAttacking(r.queens)
    {
      assert 0 <= n && GetAllSolutions(b) == Solutions(b);
      SolutionsSound(b, r);
    }
  }

  // ---------------------------------------------------------------------------
  // Completeness

  /** Trying columns from `x` on keeps every completion found from column `x0 >= x` on. */
  lemma {:induction false} ExploreIncludes(b: Board, y: int, x: int, x0: int, r: Board)
    requires 0 <= x <= x0 < b.n && 0 <= y < b.n && y !in b.rows
    requires r in Explore(b, y, x0)
    ensures r in Explore(b, y, x)
    decreases x0 - x
  {
    if x < x0 {
      ExploreIncludes(b, y, x + 1, x0, r);
      ExploreKeepsLater(b, y, x, r);
    }
  }

  /** A full placement has one queen per row, in column range. */
  lemma PlacementComplete(cs: seq<int>, n: int)
    requires |cs| == n && forall i :: 0 <= i < |cs| ==> 0 <= cs[i] < n
    ensures Complete(Placement(cs), n)
  {
  }

  /** A seed with every row filled is the placement it extends. */
  lemma FilledSeedIsPlacement(b: Board, cs: seq<int>)
    requires Seed(b) && Extends(cs, b) && FirstFreeRow(b) == b.n
    ensures b.queens == Placement(cs)
  {
    var target := Placement(cs);
    PlacementComplete(cs, b.n);
    FilledSeedComplete(b);
    forall i | 0 <= i < |b.queens| ensures b.queens[i] == target[i] {
      assert b.queens[i] in b.queens;
      CompleteRowEntry(target, b.n, b.queens[i]);
    }
  }

  /** The square a placement extending a seed uses in the first free row is
      safe on the seed. */
  lemma PlacementSquareSafe(b: Board, cs: seq<int>, y: int)
    requires Seed(b) && Extends(cs, b) && 0 <= y < b.n && y !in b.rows
    ensures IsSafe(b, cs[y], y)
  {
    var target := Placement(cs);
    var p := Position(cs[y], y);
    PlacementComplete(cs, b.n);
    forall i | 0 <= i < |b.queens| ensures !Attacks(b.queens[i], p) {
      var q := b.queens[i];
      assert q in b.queens;
      CompleteRowEntry(target, b.n, q);
      assert q.y in RowsOf(b.queens);
      assert Peaceful(target[q.y], target[y]);
    }
  }

  /** Every full non-attacking placement extending a seed is among the results. */
  lemma {:induction false} SolutionsComplete(b: Board, cs: seq<int>)
    requires Seed(b) && Extends(cs, b)
    ensures exists r :: r in Solutions(b) && r.queens == Placement(cs)
    decreases Rank(b), FreeRows(b)
  {
    var y := FirstFreeRow(b);
    if y == b.n {
      SolutionsWhenFull(b);
      FilledSeedIsPlacement(b, cs);
      assert b in Solutions(b);
    } else {
      var x := cs[y];
      PlacementSquareSafe(b, cs, y);
      StepKeepsSeed(b, x, y);
      var b1 := SetQueen(b, x, y);
      assert Extends(cs, b1);
      SolutionsComplete(b1, cs);
      var r :| r in Solutions(b1) && r.queens == Placement(cs);
      SolutionsWithStep(b, x, y);
      TryColumnSafe(b, y, x);
      ExploreKeepsColumn(b, y, x, r);
      ExploreIncludes(b, y, 0, x, r);
      SolutionsWhenOpen(b);
    }
  }

  // ---------------------------------------------------------------------------
  // Order and uniqueness

  /** Two results of a search from a seed agree on every row above the first
      free row: those rows hold the seed's queens. */
  lemma AgreeAboveFreeRow(b: Board, y: int, a: Board, c: Board)
    requires Seed(b) && y == FirstFreeRow(b) && y < b.n
    requires Completes(b, a) && Completes(b, c)
    ensures a.queens[..y] == c.queens[..y]
  {
    forall k | 0 <= k < y ensures a.queens[k] == c.queens[k] {
      assert k in RowsOf(b.queens);
      var q :| q in b.queens && q.y == k;
      CompleteRowEntry(a.queens, b.n, q);
      CompleteRowEntry(c.queens, b.n, q);
    }
  }

  /** Concatenating two ascending lists, every entry of the first below every
      entry of the second, gives an ascending list. */
  lemma AscendingConcat(xs: seq<Board>, ys: seq<Board>)
    requires Ascending(xs) && Ascending(ys)
    requires forall a, c :: a in xs && c in ys ==> ColumnLess(a.queens, c.queens)
    ensures Ascending(xs + ys)
  {
    var zs := xs + ys;
    forall i, j | 0 <= i < j < |zs| ensures ColumnLess(zs[i].queens, zs[j].queens) {
      if j < |xs| {
        assert zs[i] == xs[i] && zs[j] == xs[j];
      } else if i >= |xs| {
        assert zs[i] == ys[i - |xs|] && zs[j] == ys[j - |xs|];
      } else {
        assert zs[i] in xs && zs[j] in ys;
      }
    }
  }

  /** Results of a search from a seed come in strictly ascending column order:
      depth first, each free row's columns tried in increasing order. */
  lemma {:induction false} SolutionsOrdered(b: Board)
    requires Seed(b)
    ensures Ascending(Solutions(b))
    decreases Rank(b), FreeRows(b), 3, 0
  {
    var y := FirstFreeRow(b);
    if y == b.n {
      SolutionsWhenFull(b);
    } else {
      SolutionsWhenOpen(b);
      ExploreOrdered(b, y, 0);
    }
  }

  lemma {:induction false} ExploreOrdered(b: Board, y: int, x: int)
    requires Seed(b) && y == FirstFreeRow(b) && y < b.n && 0 <= x < b.n
    ensures Ascending(Explore(b, y, x))
    decreases Rank(b), FreeRows(b), 2, b.n - x
  {
    ExploreStep(b, y, x);
    TryColumnOrdered(b, y, x);
    TryColumnAllSound(b, y, x);
    if x + 1 < b.n {
      ExploreOrdered(b, y, x + 1);
      ExploreAllSound(b, y, x + 1);
    } else {
      ExploreEnd(b, y, x + 1);
    }
    SeparatedByColumn(b, y, x, TryColumn(b, y, x), Explore(b, y, x + 1));
    AscendingConcat(TryColumn(b, y, x), Explore(b, y, x + 1));
  }

  lemma TryColumnAllSound(b: Board, y: int, x: int)
    requires Seed(b) && y == FirstFreeRow(b) && y < b.n && 0 <= x < b.n
    ensures forall a :: a in TryColumn(b, y, x) ==> Completes(b, a) && a.queens[y].x == x
  {
    forall a | a in TryColumn(b, y, x) ensures Completes(b, a) && a.queens[y].x == x {
      TryColumnSound(b, y, x, a);
    }
  }

  lemma ExploreAllSound(b: Board, y: int, x: int)
    requires Seed(b) && y == FirstFreeRow(b) && y < b.n && 0 <= x < b.n
    ensures forall c :: c in Explore(b, y, x) ==> Completes(b, c) && x <= c.queens[y].x
  {
    forall c | c in Explore(b, y, x) ensures Completes(b, c) && x <= c.queens[y].x {
      ExploreSound(b, y, x, c);
    }
  }

  /** Results placing the row-`y` queen in column `x` all precede results
      placing it further right. */
  lemma SeparatedByColumn(b: Board, y: int, x: int, xs: seq<Board>, ys: seq<Board>)
    requires Seed(b) && y == FirstFreeRow(b) && y < b.n
    requires forall a :: a in xs ==> Completes(b, a) && a.queens[y].x == x
    requires forall c :: c in ys ==> Completes(b, c) && x + 1 <= c.queens[y].x
    ensures forall a, c :: a in xs && c in ys ==> ColumnLess(a.queens, c.queens)
  {
    forall a, c | a in xs && c in ys ensures ColumnLess(a.queens, c.queens) {
      AgreeAboveFreeRow(b, y, a, c);
    }
  }

  lemma {:induction false} TryColumnOrdered(b: Board, y: int, x: int)
    requires Seed(b) && y == FirstFreeRow(b) && y < b.n && 0 <= x < b.n
    ensures Ascending(TryColumn(b, y, x))
    decreases Rank(b), FreeRows(b), 1, 0
  {
    if IsSafe(b, x, y) {
      TryColumnSafe(b, y, x);
      SolutionsWithOrdered(b, x, y);
    } else {
      TryColumnUnsafe(b, y, x);
    }
  }

  lemma {:induction false} SolutionsWithOrdered(b: Board, x: int, y: int)
    requires Seed(b) && y == FirstFreeRow(b) && y < b.n && 0 <= x < b.n && IsSafe(b, x, y)
    ensures Ascending(SolutionsWith(b, x, y))
    decreases Rank(b), FreeRows(b), 0, 0
  {
    SolutionsWithStep(b, x, y);
    StepKeepsSeed(b, x, y);
    SolutionsOrdered(SetQueen(b, x, y));
  }

  /** Every full non-attacking placement extending a seed is found exactly once. */
  lemma SolutionsExactlyOnce(b: Board, cs: seq<int>)
    requires Seed(b) && Extends(cs, b)
    ensures exists i :: 0 <= i < |Solutions(b)| && Solutions(b)[i].queens == Placement(cs)
    ensures forall i, j :: 0 <= i < j < |Solutions(b)| ==> Solutions(b)[i].queens != Solutions(b)[j].queens
  {
    var s := Solutions(b);
    SolutionsComplete(b, cs);
    var r :| r in s && r.queens == Placement(cs);
    var i :| 0 <= i < |s| && s[i] == r;
    SolutionsOrdered(b);
    forall i, j | 0 <= i < j < |s| ensures s[i].queens != s[j].queens {
      assert ColumnLess(s[i].queens, s[j].queens);
    }
  }

  /** From the empty board, every non-attacking placement of `n` queens with
      columns in `[0, n)` is found exactly once. */
  lemma AllSolutionsComplete(n: int, cs: seq<int>)
    requires |cs| == n && forall i :: 0 <= i < |cs| ==> 0 <= cs[i] < n
    requires NonAttacking(Placement(cs))
    ensures exists i :: 0 <= i < |GetAllSolutions(NewBoard(n))| && GetAllSolutions(NewBoard(n))[i].queens == Placement(cs)
    ensures forall i, j :: 0 <= i < j < |GetAllSolutions(NewBoard(n))| ==>
              GetAllSolutions(NewBoard(n))[i].queens != GetAllSolutions(NewBoard(n))[j].queens
  {
    var b := NewBoard(n);
    assert Seed(b) && Extends(cs, b);
    assert GetAllSolutions(b) == Solutions(b);
    SolutionsExactlyOnce(b, cs);
  }

  // ---------------------------------------------------------------------------
  // The exact result

  /** The queen lists of a list of boards, in order. */
  ghost function QueenLists(rs: seq<Board>): (qss: seq<seq<Position>>)
    ensures |qss| == |rs|
    ensures forall i :: 0 <= i < |rs| ==> qss[i] == rs[i].queens
  {
    seq(|rs|, i requires 0 <= i < |rs| => rs[i].queens)
  }

  /** The placements described by a list of column lists, in order. */
  ghost function Placements(ps: seq<seq<int>>): (qss: seq<seq<Position>>)
    ensures |qss| == |ps|
    ensures forall i :: 0 <= i < |ps| ==> qss[i] == Placement(ps[i])
  {
    seq(|ps|, i requires 0 <= i < |ps| => Placement(ps[i]))
  }

  /** Queen lists in strictly ascending column order. */
  ghost predicate StrictlyAscending(xs: seq<seq<Position>>) {
    forall i, j :: 0 <= i < j < |xs| ==> ColumnLess(xs[i], xs[j])
  }

  /** Lists that agree up to `m` agree at every index below `m`. */
  lemma PrefixEntry(a: seq<Position>, c: seq<Position>, m: int, k: int)
    ensures 0 <= k < m <= |a| && m <= |c| && a[..m] == c[..m] ==> a[k] == c[k]
  {
    if 0 <= k < m <= |a| && m <= |c| && a[..m] == c[..m] {
      assert a[..m][k] == c[..m][k];
    }
  }

  /** The column order is asymmetric, hence irreflexive. */
  lemma ColumnLessAsymmetric(a: seq<Position>, c: seq<Position>)
    ensures ColumnLess(a, c) ==> !ColumnLess(c, a)
  {
    if ColumnLess(a, c) && ColumnLess(c, a) {
      var k1 :| 0 <= k1 < |a| && k1 < |c| && a[..k1] == c[..k1] && a[k1].x < c[k1].x;
      var k2 :| 0 <= k2 < |c| && k2 < |a| && c[..k2] == a[..k2] && c[k2].x < a[k2].x;
      PrefixEntry(a, c, k2, k1);
      PrefixEntry(a, c, k1, k2);
      assert false;
    }
  }

  /** Two strictly ascending lists with the same entries are equal. */
  lemma {:induction false} AscendingUnique(xs: seq<seq<Position>>, ys: seq<seq<Position>>)
    requires StrictlyAscending(xs) && StrictlyAscending(ys)
    requires forall a :: a in xs <==> a in ys
    ensures xs == ys
    decreases |xs| + |ys|
  {
    if |xs| == 0 {
      if |ys| > 0 {
        HeadIsMember(ys);
        assert false;
      }
    } else {
      assert xs[0] in xs;
      var i :| 0 <= i < |ys| && ys[i] == xs[0];
      assert ys[0] in ys;
      var j :| 0 <= j < |xs| && xs[j] == ys[0];
      if i > 0 {
        assert ColumnLess(ys[0], xs[0]);
        if j > 0 {
          assert ColumnLess(xs[0], ys[0]);
        }
        ColumnLessAsymmetric(xs[0], ys[0]);
        assert false;
      }
      forall a ensures a in xs[1..] <==> a in ys[1..] {
        TailMembers(xs, a);
        TailMembers(ys, a);
      }
      AscendingTail(xs);
      AscendingTail(ys);
      AscendingUnique(xs[1..], ys[1..]);
      assert xs == [xs[0]] + xs[1..] && ys == [ys[0]] + ys[1..];
    }
  }

  lemma HeadIsMember(ys: seq<seq<Position>>)
    requires |ys| > 0
    ensures ys[0] in ys
  {
  }

  /** In a strictly ascending list the head does not come back. */
  lemma TailMembers(xs: seq<seq<Position>>, a: seq<Position>)
    requires StrictlyAscending(xs) && |xs| > 0
    ensures a in xs[1..] <==> a in xs && a != xs[0]
  {
    if a in xs[1..] {
      var m :| 1 <= m < |xs| && xs[m] == a;
      assert ColumnLess(xs[0], xs[m]);
      ColumnLessAsymmetric(xs[0], xs[0]);
    }
    if a in xs && a != xs[0] {
      var m :| 0 <= m < |xs| && xs[m] == a;
      assert xs[1..][m - 1] == a;
    }
  }

  lemma AscendingTail(xs: seq<seq<Position>>)
    requires StrictlyAscending(xs) && |xs| > 0
    ensures StrictlyAscending(xs[1..])
  {
    forall i, j | 0 <= i < j < |xs| - 1 ensures ColumnLess(xs[1..][i], xs[1..][j]) {
      assert xs[1..][i] == xs[i + 1] && xs[1..][j] == xs[j + 1];
    }
  }

  /** The columns of a full placement describe it. */
  lemma ColumnsOf(qs: seq<Position>, n: int) returns (cs: seq<int>)
    requires Complete(qs, n)
    ensures |cs| == n && (forall i :: 0 <= i < |cs| ==> 0 <= cs[i] < n)
    ensures Placement(cs) == qs
  {
    cs := seq(|qs|, i requires 0 <= i < |qs| => qs[i].x);
    assert Placement(cs) == qs;
  }

  /** Every result of a search from a non-attacking seed is one of the listed placements. */
  lemma ResultIsListed(b: Board, ps: seq<seq<int>>, r: Board)
    requires Seed(b) && NonAttacking(b.queens)
    requires forall cs :: Extends(cs, b) ==> cs in ps
    requires r in Solutions(b)
    ensures r.queens in Placements(ps)
  {
    SolutionsSound(b, r);
    var cs := ColumnsOf(r.queens, b.n);
    assert Extends(cs, b);
    var i :| 0 <= i < |ps| && ps[i] == cs;
    assert Placements(ps)[i] == r.queens;
  }

  /** Every listed placement is the queen list of some result. */
  lemma ListedIsResult(b: Board, ps: seq<seq<int>>, i: int)
    requires Seed(b)
    requires 0 <= i < |ps| && Extends(ps[i], b)
    ensures Placements(ps)[i] in QueenLists(Solutions(b))
  {
    var s := Solutions(b);
    SolutionsComplete(b, ps[i]);
    var r :| r in s && r.queens == Placement(ps[i]);
    var k :| 0 <= k < |s| && s[k] == r;
    assert QueenLists(s)[k] == r.queens;
  }

  /** When `ps` lists, in ascending column order, exactly the full
      non-attacking placements extending a non-attacking seed, the search
      returns exactly those placements, in that order. */
  lemma SolutionsExactly(b: Board, ps: seq<seq<int>>)
    requires Seed(b) && NonAttacking(b.queens)
    requires forall i :: 0 <= i < |ps| ==> Extends(ps[i], b)
    requires StrictlyAscending(Placements(ps))
    requires forall cs :: Extends(cs, b) ==> cs in ps
    ensures QueenLists(Solutions(b)) == Placements(ps)
  {
    var s := Solutions(b);
    var xs := QueenLists(s);
    var ys := Placements(ps);
    SolutionsOrdered(b);
    assert StrictlyAscending(xs);
    forall a ensures a in xs <==> a in ys {
      if a in xs {
        var k :| 0 <= k < |xs| && xs[k] == a;
        ResultIsListed(b, ps, s[k]);
      }
      if a in ys {
        var i :| 0 <= i < |ys| && ys[i] == a;
        ListedIsResult(b, ps, i);
      }
    }
    AscendingUnique(xs, ys);
  }

  /** `cs` describes a full non-attacking placement of `n` queens. */
  ghost predicate Solves(cs: seq<int>, n: int) {
    && |cs| == n
    && (forall i :: 0 <= i < |cs| ==> 0 <= cs[i] < n)
    && NonAttacking(Placement(cs))
  }

  /** When `ps` lists, in ascending column order, exactly the full
      non-attacking placements of `n >= 0` queens, the search from the empty
      board of size `n` returns exactly those placements, in that order. */
  lemma AllSolutionsExactly(n: int, ps: seq<seq<int>>)
    requires 0 <= n
    requires forall cs :: Solves(cs, n) <==> cs in ps
    requires StrictlyAscending(Placements(ps))
    ensures QueenLists(GetAllSolutions(NewBoard(n))) == Placements(ps)
  {
    var b := NewBoard(n);
    assert Seed(b) && NonAttacking(b.queens);
    forall i | 0 <= i < |ps| ensures Extends(ps[i], b) {
      assert Solves(ps[i], n);
    }
    forall cs | Extends(cs, b) ensures cs in ps {
      assert Solves(cs, n);
    }
    SolutionsExactly(b, ps);
    assert GetAllSolutions(b) == Solutions(b);
  }

  /** A single queen set on an empty board is a non-attacking seed holding just that queen. */
  lemma OneQueenSeed(n: int, x: int, y: int)
    requires 0 <= x < n && 0 <= y < n
    ensures Seed(SetQueen(NewBoard(n), x, y))
    ensures SetQueen(NewBoard(n), x, y).queens == [Position(x, y)]
    ensures NonAttacking(SetQueen(NewBoard(n), x, y).queens)
  {
    var e := NewBoard(n);
    assert Seed(e) && NonAttacking(e.queens) && !NeedsSort(e, y);
    StepKeepsSeed(e, x, y);
  }

  /** The placements extending a one-queen seed are the full non-attacking
      placements with that queen. */
  lemma OneQueenExtends(n: int, x: int, y: int, cs: seq<int>)
    requires 0 <= x < n && 0 <= y < n
    ensures Extends(cs, SetQueen(NewBoard(n), x, y)) <==> Solves(cs, n) && cs[y] == x
  {
    OneQueenSeed(n, x, y);
    if |cs| == n {
      assert Position(x, y) in Placement(cs) <==> cs[y] == x;
    }
  }

  /** When `ps` lists, in ascending column order, exactly the full
      non-attacking placements of `n` queens with a queen at `(x, y)`, the
      search seeded with that one queen returns exactly those placements. */
  lemma SeededSolutionsExactly(n: int, x: int, y: int, ps: seq<seq<int>>)
    requires 0 <= x < n && 0 <= y < n
    requires forall cs :: Solves(cs, n) && cs[y] == x <==> cs in ps
    requires StrictlyAscending(Placements(ps))
    ensures QueenLists(GetAllSolutions(SetQueen(NewBoard(n), x, y))) == Placements(ps)
  {
    var b := SetQueen(NewBoard(n), x, y);
    OneQueenSeed(n, x, y);
    forall i | 0 <= i < |ps| ensures Extends(ps[i], b) {
      assert ps[i] in ps;
      OneQueenExtends(n, x, y, ps[i]);
    }
    forall cs | Extends(cs, b) ensures cs in ps {
      OneQueenExtends(n, x, y, cs);
    }
    SolutionsExactly(b, ps);
    assert GetAllSolutions(b) == Solutions(b);
  }
}

=== FILE: symmetry.dfy ===
/** Facts about the two board transforms of nqueens/board.go: mirroring is an
    involution, four quarter turns give back the board, and both transforms
    keep queens on the board and keep non-attacking queens non-attacking; and
    the eight symmetric variants of a queen list that the equivalence check
    compares against. */
module Symmetry {
  import opened Positions
  import opened Boards

  // ---------------------------------------------------------------------------
  // One square at a time

  /** Both moves map attacking pairs to attacking pairs and back, and keep two
      squares in different rows and columns apart in both. */
  lemma ApplyKeepsRelations(t: Transform, n: int, p: Position, q: Position)
    ensures Attacks(Apply(t, n, p), Apply(t, n, q)) <==> Attacks(p, q)
    ensures DifferentRowsAndColumns(Apply(t, n, p), Apply(t, n, q)) <==> DifferentRowsAndColumns(p, q)
    ensures t == Reflection ==> (DifferentRows(Apply(t, n, p), Apply(t, n, q)) <==> DifferentRows(p, q))
  {
  }

  /** Four quarter turns bring every square back where it started. */
  lemma FourTurnsIdentity(n: int, s: seq<Position>)
    ensures Turns(4, n, s) == s
  {
    var t1 := ApplyAll(Rotation, n, s);
    var t2 := ApplyAll(Rotation, n, t1);
    var t3 := ApplyAll(Rotation, n, t2);
    var t4 := ApplyAll(Rotation, n, t3);
    assert Turns(1, n, s) == t1;
    assert Turns(2, n, s) == t2;
    assert Turns(3, n, s) == t3;
    assert Turns(4, n, s) == t4;
    forall i | 0 <= i < |s| ensures t4[i] == s[i] {
      assert t4[i] == Apply(Rotation, n, Apply(Rotation, n, Apply(Rotation, n, Apply(Rotation, n, s[i]))));
    }
  }

  /** Applying a move to every queen keeps the pairwise properties it respects. */
  lemma ApplyAllKeepsPairwise(t: Transform, n: int, s: seq<Position>)
    ensures NonAttacking(s) ==> NonAttacking(ApplyAll(t, n, s))
    ensures DistinctRowsAndColumns(s) ==> DistinctRowsAndColumns(ApplyAll(t, n, s))
    ensures t == Reflection && DistinctRows(s) ==> DistinctRows(ApplyAll(t, n, s))
  {
    var r := ApplyAll(t, n, s);
    forall i, j | 0 <= i < |s| && 0 <= j < |s| && i != j
      ensures Peaceful(s[i], s[j]) ==> Peaceful(r[i], r[j])
      ensures DifferentRowsAndColumns(s[i], s[j]) ==> DifferentRowsAndColumns(r[i], r[j])
      ensures t == Reflection && DifferentRows(s[i], s[j]) ==> DifferentRows(r[i], r[j])
    {
      ApplyKeepsRelations(t, n, s[i], s[j]);
    }
  }

  /** Quarter turns keep queens in different rows and columns, and keep them
      non-attacking. */
  lemma {:induction false} TurnsKeepPairwise(k: nat, n: int, s: seq<Position>)
    ensures DistinctRowsAndColumns(s) ==> DistinctRowsAndColumns(Turns(k, n, s))
    ensures NonAttacking(s) ==> NonAttacking(Turns(k, n, s))
  {
    if k > 0 {
      TurnsKeepPairwise(k - 1, n, s);
      ApplyAllKeepsPairwise(Rotation, n, Turns(k - 1, n, s));
    }
  }

  /** Every square of an in-range list stays in range under either move. */
  lemma ApplyAllKeepsRange(t: Transform, n: int, s: seq<Position>)
    requires InRange(s, n)
    ensures InRange(ApplyAll(t, n, s), n)
  {
    var r := ApplyAll(t, n, s);
    forall q | q in r ensures 0 <= q.x < n && 0 <= q.y < n {
      var i :| 0 <= i < |r| && r[i] == q;
      assert s[i] in s;
    }
  }

  // ---------------------------------------------------------------------------
  // Mirror

  /** Mirroring twice gives back the queen list, and the whole board when its
      caches are valid. */
  lemma MirrorInvolution(b: Board)
    ensures Mirror(Mirror(b)).n == b.n
    ensures Mirror(Mirror(b)).queens == b.queens
    ensures Valid(b) ==> Mirror(Mirror(b)) == b
  {
    MirrorTwiceQueens(b);
  }

  lemma MirrorTwiceQueens(b: Board)
    ensures Mirror(Mirror(b)).queens == b.queens
  {
    var once := Mirror(b);
    var m := Mirror(once);
    forall i | 0 <= i < |b.queens| ensures m.queens[i] == b.queens[i] {
      assert once.queens[i] == Position(b.n - 1 - b.queens[i].x, b.queens[i].y);
    }
  }

  /** Mirroring keeps queens on the board, keeps the rows (hence the by-row
      order and distinct rows), and keeps non-attacking queens non-attacking. */
  lemma MirrorPreserves(b: Board)
    ensures InRange(b.queens, b.n) ==> InRange(Mirror(b).queens, b.n)
    ensures SortedByY(b.queens) ==> SortedByY(Mirror(b).queens)
    ensures DistinctRows(b.queens) ==> DistinctRows(Mirror(b).queens)
    ensures DistinctRowsAndColumns(b.queens) ==> DistinctRowsAndColumns(Mirror(b).queens)
    ensures NonAttacking(b.queens) ==> NonAttacking(Mirror(b).queens)
  {
    var m := Mirror(b);
    assert m.queens == ApplyAll(Reflection, b.n, b.queens);
    ApplyAllKeepsPairwise(Reflection, b.n, b.queens);
    if InRange(b.queens, b.n) {
      ApplyAllKeepsRange(Reflection, b.n, b.queens);
    }
  }

  // ---------------------------------------------------------------------------
  // Rotation

  /** A quarter turn keeps queens on the board, keeps queens in different rows
      and columns apart, and keeps non-attacking queens non-attacking. */
  lemma RotatePreserves(b: Board)
    ensures InRange(b.queens, b.n) ==> InRange(RotateClockwise(b).queens, b.n)
    ensures DistinctRowsAndColumns(b.queens) ==> DistinctRowsAndColumns(RotateClockwise(b).queens)
    ensures NonAttacking(b.queens) ==> NonAttacking(RotateClockwise(b).queens)
  {
    var r := RotateClockwise(b);
    var turned := ApplyAll(Rotation, b.n, b.queens);
    ApplyAllKeepsPairwise(Rotation, b.n, b.queens);
    if DistinctRowsAndColumns(b.queens) {
      PairwisePermutation(turned, r.queens, DifferentRowsAndColumns);
    }
    if NonAttacking(b.queens) {
      PairwisePermutation(turned, r.queens, Peaceful);
    }
    if InRange(b.queens, b.n) {
      ApplyAllKeepsRange(Rotation, b.n, b.queens);
      PermutationKeepsRange(turned, r.queens, b.n);
    }
  }

  /** After `k >= 1` turns the queens are sorted by row and are, in some order,
      the squares reached by `k` quarter turns. */
  lemma {:induction false} RotateTimesEntries(b: Board, k: nat)
    requires k >= 1
    ensures SortedByY(RotateTimes(b, k).queens)
    ensures multiset(RotateTimes(b, k).queens) == multiset(Turns(k, b.n, b.queens))
    ensures Valid(RotateTimes(b, k))
  {
    if k > 1 {
      var prev := RotateTimes(b, k - 1);
      RotateTimesEntries(b, k - 1);
      ApplyAllPermutation(Rotation, b.n, prev.queens, Turns(k - 1, b.n, b.queens));
    }
  }

  /** Four quarter turns of a board sorted by row, with distinct rows, give back
      the identical queen list, and the identical board when its caches are valid. */
  lemma RotateFourTimes(b: Board)
    requires SortedByY(b.queens) && DistinctRows(b.queens)
    ensures RotateTimes(b, 4).queens == b.queens
    ensures Valid(b) ==> RotateTimes(b, 4) == b
  {
    var r := RotateTimes(b, 4);
    RotateTimesEntries(b, 4);
    FourTurnsIdentity(b.n, b.queens);
    SortedPermutationsEqual(r.queens, b.queens, b.queens);
  }

  /** When no two queens share a row or column, `k >= 1` turns give exactly the
      by-row sort of the turned squares, whatever sort the source uses. */
  lemma RotateTimesImage(b: Board, k: nat)
    requires k >= 1
    requires DistinctRowsAndColumns(b.queens)
    ensures RotateTimes(b, k).queens == SortByY(Turns(k, b.n, b.queens))
  {
    var turned := Turns(k, b.n, b.queens);
    RotateTimesEntries(b, k);
    TurnsKeepPairwise(k, b.n, b.queens);
    PairwiseWeaken(turned);
    SortedPermutationsEqual(RotateTimes(b, k).queens, SortByY(turned), turned);
  }

  /** Queens in different rows and columns are in particular in different rows. */
  lemma PairwiseWeaken(s: seq<Position>)
    requires DistinctRowsAndColumns(s)
    ensures DistinctRows(s)
  {
    forall i, j | 0 <= i < |s| && 0 <= j < |s| && i != j ensures DifferentRows(s[i], s[j]) {
      assert DifferentRowsAndColumns(s[i], s[j]);
    }
  }

  // ---------------------------------------------------------------------------
  // The eight images compared by the equivalence check

  /** The queens `qs` of an `n`-by-`n` board after an optional reflection and
      then `k` clockwise quarter turns, listed by row: one of the eight
      symmetries of the square. */
  function Variant(reflect: bool, k: nat, n: int, qs: seq<Position>): (vs: seq<Position>)
    ensures multiset(vs) == multiset(Turns(k, n, if reflect then ApplyAll(Reflection, n, qs) else qs))
    ensures SortedByY(vs)
  {
    SortByY(Turns(k, n, if reflect then ApplyAll(Reflection, n, qs) else qs))
  }

  /** `qs` holds, in some order, the same squares as one of the eight variants of `qs1`. */
  ghost predicate SameSquaresAsVariant(qs: seq<Position>, n: int, qs1: seq<Position>) {
    exists reflect: bool, k: nat :: k < 4 && multiset(qs) == multiset(Variant(reflect, k, n, qs1))
  }

  /** On any board, `k` quarter turns give, in some order, the squares of the
      unreflected `k`-turn variant (the fourth turn: the board's own squares). */
  lemma TurnedSquares(b1: Board, k: nat)
    requires 1 <= k <= 4
    ensures multiset(RotateTimes(b1, k).queens) == multiset(Variant(false, if k == 4 then 0 else k, b1.n, b1.queens))
    ensures SameSquaresAsVariant(RotateTimes(b1, k).queens, b1.n, b1.queens)
  {
    var r := RotateTimes(b1, k);
    RotateTimesEntries(b1, k);
    if k == 4 {
      FourTurnsIdentity(b1.n, b1.queens);
      assert multiset(r.queens) == multiset(Variant(false, 0, b1.n, b1.queens));
    } else {
      assert multiset(r.queens) == multiset(Variant(false, k, b1.n, b1.queens));
    }
  }

  /** On any board, the mirror of the fourth quarter turn, turned `k` more
      times, gives, in some order, the squares of the reflected `k`-turn variant. */
  lemma MirroredSquares(b1: Board, k: nat)
    requires k < 4
    ensures multiset(RotateTimes(Mirror(RotateTimes(b1, 4)), k).queens) == multiset(Variant(true, k, b1.n, b1.queens))
    ensures SameSquaresAsVariant(RotateTimes(Mirror(RotateTimes(b1, 4)), k).queens, b1.n, b1.queens)
  {
    var n := b1.n;
    var r4 := RotateTimes(b1, 4);
    RotateTimesEntries(b1, 4);
    FourTurnsIdentity(n, b1.queens);
    var m := Mirror(r4);
    assert m.queens == ApplyAll(Reflection, n, r4.queens);
    var reflected := ApplyAll(Reflection, n, b1.queens);
    ApplyAllPermutation(Reflection, n, r4.queens, b1.queens);
    var r := RotateTimes(m, k);
    if k == 0 {
      assert multiset(r.queens) == multiset(Variant(true, 0, n, b1.queens));
    } else {
      RotateTimesEntries(m, k);
      TurnsPermutation(k, n, m.queens, reflected);
      assert multiset(r.queens) == multiset(Variant(true, k, n, b1.queens));
    }
  }
}
